=== FILE: README.md ===
# Car REST API: pagination links, endpoints, service and error translation

A Dafny model of the core of a Spring Boot REST service for cars. It covers four parts:

- **Pagination headers** (`Pagination` module). After a listing is served, a listener adds four `Pagination-*` headers and one `Link` header. The `Link` header has up to four relations (`next`, `prev`, `first`, `last`), following section 5 of RFC 5988. Each relation's URI is the request URI with `page` and `size` replaced. The listener overwrites these parameters in place on one builder that all four links share. The model threads that builder through the four blocks. `LinkHeaderIsJoin` then proves the sharing harmless: the result equals an independent description, which is the present relations' entries joined by `", "`.
- **The service** (`CarService`). It is a state machine over the store, a map from id to car. Every operation is gated by one authority, checked first. A caller without it gets access-denied, or missing credentials when there is no caller at all, and the store is left as it was. Then validation runs, then the store is read or written. The clock is a parameter: the `n`-th reading is `now(n)`.
- **The endpoints** (`CarRest`). `listCars` returns not-found for a page past the last page. Because it compares `page > totalPages - 1`, page 0 of an empty listing is also not-found. `getCar` returns 200. `addCar` returns 201 with a `Location` naming the new id. `updateCar` and `deleteCar` return 204.
- **The error translation** (`ControllerAdvice`). It is one total function from the failure raised to a status and an optional JSON body.

Two behaviours of the code differ from what a reader might expect. The model follows the code in both cases:

- `update` saves the caller's car with only the id and the update date overwritten. A caller that sends no insert date erases the stored one (`UpdateCanEraseInsertDate`).
- A transaction failure whose root cause is not a constraint violation is answered 400 with an empty body. This is because the handler returns `null` (`TransactionOtherCauseHasNoBody`).

The service test grants `CAR_ADD` to its adding caller. The code requires `CAR_CREATE`, and the model uses `CAR_CREATE`.

Supporting modules:

- `Decimal`: Java's `"" + n` rendering, with its parse-back round trip.
- `Strings`: joining with a separator.
- `Uris`: a query-string builder with `replaceQueryParam`, which removes every value of the name and appends the name last.
- `Http`: headers and status codes.
- `Domain`: the car, the caller and the failures.
- `Optional`: `Option`.

## Model

| member | source | states |
|---|---|---|
| Decimal.FromInt | src/main/java/com/rest/api/web/event/PaginatedResultsRetrievedEventDiscoverabilityListener.java:45-48 | the header rendering of an integer is canonical decimal: never empty, all digits exactly when the number is non-negative, `-` first exactly when it is negative and then a non-zero digit, `"0"` for zero, and no leading zero otherwise |
| Decimal.RoundTrip | src/main/java/com/rest/api/web/event/PaginatedResultsRetrievedEventDiscoverabilityListener.java:45-48 | parsing the rendering of any integer gives that integer back |
| Decimal.ParseNatDigits | src/main/java/com/rest/api/web/event/PaginatedResultsRetrievedEventDiscoverabilityListener.java:45-48 | the digits of a natural number parse back to it (induction on the number) |
| Decimal.FromIntInjective | src/main/java/com/rest/api/web/event/PaginatedResultsRetrievedEventDiscoverabilityListener.java:45-48 | two different numbers never give the same header value |
| Strings.JoinEmpty | src/main/java/com/rest/api/web/event/PaginatedResultsRetrievedEventDiscoverabilityListener.java:85-89 | joining non-empty entries gives the empty string exactly when there are no entries, which is what the comma test on the builder's length relies on |
| Strings.JoinLength | src/main/java/com/rest/api/web/event/PaginatedResultsRetrievedEventDiscoverabilityListener.java:85-89 | the joined length is the entries' lengths plus exactly `|xs| - 1` separator lengths |
| Strings.JoinEnds | src/main/java/com/rest/api/web/event/PaginatedResultsRetrievedEventDiscoverabilityListener.java:85-89 | a join starts with its first entry and ends with its last, so no separator comes before the first entry or after the last |
| Uris.ReplaceQueryParam | src/main/java/com/rest/api/web/event/PaginatedResultsRetrievedEventDiscoverabilityListener.java:53-54 | after the replacement the name has exactly the one new value, every other parameter keeps its values, and the path is untouched |
| Uris.WithPageAndSize | src/main/java/com/rest/api/web/event/PaginatedResultsRetrievedEventDiscoverabilityListener.java:53-67 | a page URI's builder has exactly the target page and the page size, and every other request parameter is kept |
| Uris.WithoutTwice | src/main/java/com/rest/api/web/event/PaginatedResultsRetrievedEventDiscoverabilityListener.java:53-67 | removing two parameter names gives the same query in either order |
| Uris.WithPageAndSizeOverrides | src/main/java/com/rest/api/web/event/PaginatedResultsRetrievedEventDiscoverabilityListener.java:24-43 | overwriting page and size on a builder that was already overwritten gives the same builder as overwriting the request's own, so the shared mutable builder leaks nothing from one link into the next |
| Pagination.HasNextPage | src/main/java/com/rest/api/web/event/PaginatedResultsRetrievedEventDiscoverabilityListener.java:69-71 | definition, no contract: `page < totalPages - 1` |
| Pagination.HasPreviousPage | src/main/java/com/rest/api/web/event/PaginatedResultsRetrievedEventDiscoverabilityListener.java:73-75 | definition, no contract: `page > 0` |
| Pagination.HasFirstPage | src/main/java/com/rest/api/web/event/PaginatedResultsRetrievedEventDiscoverabilityListener.java:77-79 | definition, no contract: the same test as `HasPreviousPage` |
| Pagination.HasLastPage | src/main/java/com/rest/api/web/event/PaginatedResultsRetrievedEventDiscoverabilityListener.java:81-83 | definition, no contract: `totalPages > 1` and `HasNextPage` |
| Pagination.AppendCommaIfNecessary | src/main/java/com/rest/api/web/event/PaginatedResultsRetrievedEventDiscoverabilityListener.java:85-89 | definition, no contract: appends `", "` only to a non-empty header; `LinkHeaderIsJoin` states its effect |
| Pagination.CreateLinkHeader | src/main/java/com/rest/api/web/event/PaginatedResultsRetrievedEventDiscoverabilityListener.java:91-93 | definition, no contract: the URI in angle brackets, then `; rel="`, the relation and `"`; `FirstPageOfFiveLinkHeader` pins a concrete case |
| Pagination.AddLink | src/main/java/com/rest/api/web/event/PaginatedResultsRetrievedEventDiscoverabilityListener.java:25-43 | definition, no contract: one `if (has...Page)` block, overwriting page and size on the shared builder, adding a comma if necessary and appending the entry; `AddLinkStep` states its effect |
| Pagination.LinkHeader | src/main/java/com/rest/api/web/event/PaginatedResultsRetrievedEventDiscoverabilityListener.java:24-43 | definition, no contract: the four blocks in order, threading the shared builder and the header; `LinkHeaderIsJoin` relates it to the independent description |
| Pagination.Relations | src/main/java/com/rest/api/web/event/PaginatedResultsRetrievedEventDiscoverabilityListener.java:69-83 | `next` is present iff `page < totalPages - 1`, `prev` iff `page > 0`, `first` iff `prev`, `last` iff `totalPages > 1` and `next`; relations come in the order next, prev, first, last |
| Pagination.LinkHeaderIsJoin | src/main/java/com/rest/api/web/event/PaginatedResultsRetrievedEventDiscoverabilityListener.java:24-43 | the listener's four-block, comma-if-necessary construction on the shared builder equals the present relations' entries, each built from the request's own URI, joined by `", "` |
| Pagination.AddLinkHeaderOnPagedResourceRetrieval | src/main/java/com/rest/api/web/event/PaginatedResultsRetrievedEventDiscoverabilityListener.java:20-51 | exactly five headers in order; the four `Pagination-*` values are the canonical decimal renderings of total count, page, page count and page size, and parse back to them; the always-present `Link` value is the joined entries |
| Pagination.LastIffNext | src/main/java/com/rest/api/web/event/PaginatedResultsRetrievedEventDiscoverabilityListener.java:77-83 | for a non-negative page, `last` is present exactly when `next` is |
| Pagination.LinkTargetsExist | src/main/java/com/rest/api/web/event/PaginatedResultsRetrievedEventDiscoverabilityListener.java:53-83 | for a page inside the listing, every link points at a page between 0 and `totalPages - 1` |
| Pagination.EmptyLinkHeader | src/main/java/com/rest/api/web/event/PaginatedResultsRetrievedEventDiscoverabilityListener.java:24-50 | for page 0 of a listing of at most one page, the `Link` header is still added, with an empty value |
| Pagination.LinkHeaderEmptyIff | src/main/java/com/rest/api/web/event/PaginatedResultsRetrievedEventDiscoverabilityListener.java:24-50 | the `Link` value is empty exactly when no relation is present |
| Pagination.PageUriOnBareBuilder | src/main/java/com/rest/api/web/event/PaginatedResultsRetrievedEventDiscoverabilityListener.java:53-67 | for a request without a query, a page URI is the path, `?page=`, the page, `&size=`, the size |
| Pagination.FirstOfThree | src/main/java/com/rest/api/web/event/PaginatedResultsRetrievedEventDiscoverabilityListener.java:69-83 | page 0 of 3 has `next` to page 1 and `last` to page 2 only |
| Pagination.MiddleOfThree | src/main/java/com/rest/api/web/event/PaginatedResultsRetrievedEventDiscoverabilityListener.java:69-83 | page 1 of 3 has all four relations, `prev` to page 0 and `last` to page 2 |
| Pagination.LastPage | src/main/java/com/rest/api/web/event/PaginatedResultsRetrievedEventDiscoverabilityListener.java:69-83 | the last of several pages has `prev` and `first` only |
| Pagination.FirstPageOfFiveLinkHeader | src/main/java/com/rest/api/web/event/PaginatedResultsRetrievedEventDiscoverabilityListener.java:24-67 | five cars two per page, page 0: the `Link` value is the `next` entry for `?page=1&size=2`, a comma, and the `last` entry for `?page=2&size=2` |
| Domain.Denial | src/main/java/com/rest/api/service/CarServiceImpl.java:29-30 | a failed authority check raises access-denied, carrying the framework's denial text unchanged, for an authenticated caller, and missing-credentials for an anonymous one |
| CarService.FindById | src/main/java/com/rest/api/service/CarServiceImpl.java:29-36 | succeeds exactly with `CAR_READ` and a stored id, returning the stored car; a missing id is car-not-found |
| CarService.FindAll | src/main/java/com/rest/api/service/CarServiceImpl.java:38-41 | with `CAR_READ`, the result holds every stored car and, for a well-formed store, nothing else |
| CarService.FindAllPaginated | src/main/java/com/rest/api/service/CarServiceImpl.java:43-46 | with `CAR_READ` the store's page is returned unchanged, out-of-range or not |
| CarService.Add | src/main/java/com/rest/api/service/CarServiceImpl.java:48-53 | requires `CAR_CREATE`, then a valid car; stores the caller's attributes under a fresh id with the insert date from one clock reading and the update date from the next (ordered for a monotone clock); nothing else in the store changes |
| CarService.Update | src/main/java/com/rest/api/service/CarServiceImpl.java:55-64 | requires `CAR_UPDATE`, then a valid car, then a stored id (else car-not-found, store unchanged); stores the caller's car with the path id and a fresh update date, keeping the caller's insert date; other cars unchanged |
| CarService.DeleteById | src/main/java/com/rest/api/service/CarServiceImpl.java:66-73 | requires `CAR_DELETE`; removes exactly the stored id, and a missing id is car-not-found with the store unchanged |
| CarService.Delete | src/main/java/com/rest/api/service/CarServiceImpl.java:75-82 | requires `CAR_DELETE`; removes exactly the entity's id, succeeding whether or not it was stored |
| CarService.Apply | src/main/java/com/rest/api/service/CarServiceImpl.java:29-82 | definition, no contract: one service call as the transition `(store, caller, clock, operation) -> (store', outcome)`, dispatching to the operations above; the lemmas below quantify over it |
| CarService.AuthorityCheckedFirst | src/main/java/com/rest/api/service/CarServiceImpl.java:29-82 | without the operation's authority, every operation raises the denial and leaves the store alone, whatever its target or argument |
| CarService.AuthorizedNeverDenied | src/main/java/com/rest/api/service/CarServiceImpl.java:29-82 | with the operation's authority, no operation raises access-denied or missing-credentials |
| CarService.FailureLeavesStore | src/main/java/com/rest/api/service/CarServiceImpl.java:29-82 | a call that raises leaves the store, the id counter and the clock unchanged |
| CarService.ApplyPreservesValid | src/main/java/com/rest/api/service/CarServiceImpl.java:48-82 | every operation keeps each stored car under its own id, with the id counter past every key |
| CarService.ApplyKeepsStampsNotAfter | src/main/java/com/rest/api/service/CarServiceImpl.java:48-64 | with a monotone clock, no operation leaves a stored date after the clock's next reading, provided an updating caller sends no future date |
| CarService.AddThenFindById | src/main/java/com/rest/api/service/CarServiceImpl.java:29-53 | what `add` returns is what `findById` of its id then returns, with the caller's attributes |
| CarService.ReadThenUpdateKeepsDateOrder | src/main/java/com/rest/api/service/CarServiceImpl.java:55-64 | a caller that sends back the insert date it read gets a stored update date not before it |
| CarService.UpdateCanEraseInsertDate | src/main/java/com/rest/api/service/CarServiceImpl.java:55-64 | a successful update with no insert date in the request erases the stored insert date |
| ControllerAdvice.LastIndexOf | src/main/java/com/rest/api/web/handler/ControllerAdvice.java:72 | the result is -1 or a position of the character, with no occurrence after it |
| ControllerAdvice.FieldName | src/main/java/com/rest/api/web/handler/ControllerAdvice.java:72-77 | the field name has no `.`, is the suffix of the property path after its last `.`, and is the whole path when the path has no `.` |
| ControllerAdvice.FieldNameIdempotent | src/main/java/com/rest/api/web/handler/ControllerAdvice.java:72-77 | taking the field name of a field name changes nothing |
| ControllerAdvice.ViolationFieldErrors | src/main/java/com/rest/api/web/handler/ControllerAdvice.java:71-81 | one field error per violation, in order, with code 1, the bare field name and the violation's own message |
| ControllerAdvice.BindingFieldErrors | src/main/java/com/rest/api/web/handler/ControllerAdvice.java:56-58 | one field error per binding error, in order, with code 1, its field and the catalog's message for it |
| ControllerAdvice.HandleConstraintViolation | src/main/java/com/rest/api/web/handler/ControllerAdvice.java:63-84 | a validation body with code 100 and the catalog's validation text, and exactly one field error per violation, in order, with code 1, the bare field name and the violation's own message |
| ControllerAdvice.Translate | src/main/java/com/rest/api/web/handler/ControllerAdvice.java:35-111 | the status is 404 iff not-found of either kind, 403 iff access-denied, 400 iff a validation kind, else 500; the body is empty iff resource-not-found or a transaction failure with another root cause; 500 always carries code 999 and the catalog's internal-error text; a 400 body is a validation error with code 100; a binding failure's body carries the binding field errors resolved through the catalog |
| ControllerAdvice.BindingFailureCarriesFieldErrors | src/main/java/com/rest/api/web/handler/ControllerAdvice.java:49-61 | a binding failure is 400 with code 100, the catalog's validation text, and exactly one field error per binding error, in order, with code 1, its field and the catalog's message for it |
| ControllerAdvice.TransactionUnwrapsViolations | src/main/java/com/rest/api/web/handler/ControllerAdvice.java:89-96 | a transaction failure caused by constraint violations is answered exactly like those violations |
| ControllerAdvice.TransactionOtherCauseHasNoBody | src/main/java/com/rest/api/web/handler/ControllerAdvice.java:89-96 | a transaction failure with any other root cause is 400 with an empty body |
| ControllerAdvice.InternalErrorHidesDetail | src/main/java/com/rest/api/web/handler/ControllerAdvice.java:106-111 | two unexpected exceptions with different messages get the same response |
| ControllerAdvice.ViolationFieldErrorsAreBare | src/main/java/com/rest/api/web/handler/ControllerAdvice.java:64-84 | a constraint-violation answer has one bare, suffix field name per violation, with the violation's message, and does not depend on the message catalog |
| ControllerAdvice.CarNotFoundBody | src/main/java/com/rest/api/web/handler/ControllerAdvice.java:43-47 | car-not-found is 404 with code 1 and the catalog's `car.notfound` text |
| ControllerAdvice.AccessDeniedBody | src/main/java/com/rest/api/web/handler/ControllerAdvice.java:98-103 | access-denied is 403 with code 800 and the exception's own message |
| CarRest.ListCars | src/main/java/com/rest/api/web/CarRest.java:69-87 | succeeds iff the caller has `CAR_READ` and `page <= totalPages - 1`; past the last page it is resource-not-found; on success, 200 with the page's content and exactly the listener's headers for the store's totals and the request's page and size |
| CarRest.GetCar | src/main/java/com/rest/api/web/CarRest.java:89-93 | 200 with the stored car exactly when the service finds it, else the service's failure |
| CarRest.AddCar | src/main/java/com/rest/api/web/CarRest.java:95-105 | the service's state change; on success 201, no body, and one `Location` header built from the new id |
| CarRest.LocationHeader | src/main/java/com/rest/api/web/CarRest.java:100-104 | a `Location` header; for a request without a query its value is the request path, `/` and the decimal id |
| CarRest.UpdateCar | src/main/java/com/rest/api/web/CarRest.java:107-111 | the service's state change; 204 with no body on success, else the service's failure |
| CarRest.DeleteCar | src/main/java/com/rest/api/web/CarRest.java:113-117 | the service's state change; 204 with no body on success, else the service's failure |
| CarRest.Serve | src/main/java/com/rest/api/web/handler/ControllerAdvice.java:35-111 | a handler's own response passes through; a raised failure becomes the translated status with no headers, with the translated error body as its JSON body, and with no body exactly when the translation has none |
| CarRest.ListPastLastPageIsNotFound | src/main/java/com/rest/api/web/CarRest.java:79-81 | a page past the last is 404 with no body and no pagination headers |
| CarRest.EmptyListingFirstPageIsNotFound | src/main/java/com/rest/api/web/CarRest.java:79-81 | page 0 of an empty listing is 404 too |
| CarRest.PastLastPageArithmetic | src/main/java/com/rest/api/web/CarRest.java:79 | with `totalPages = ceil(total / size)`, `page > totalPages - 1` holds exactly when `page * size >= total` |
| CarRest.ListNotFoundIffPastLastElement | src/main/java/com/rest/api/web/CarRest.java:77-81 | with such a store, a listing is not-found exactly when the requested page starts at or past the last element |
| CarRest.ListedHeadersDescribeThePage | src/main/java/com/rest/api/web/CarRest.java:83-86 | a served listing's headers are the canonical renderings of the store's totals and the request's page and size, parse back to them, and its links point only at existing pages |
| CarRest.GetMissingCarIsNotFound | src/main/java/com/rest/api/web/CarRest.java:89-93 | reading an id that is not stored is 404 with code 1 and the `car.notfound` text |
| CarRest.UpdateMissingCarIsNotFound | src/main/java/com/rest/api/web/CarRest.java:107-111 | updating an id that is not stored is 404 and changes nothing |
| CarRest.DeleteMissingCarIsNotFound | src/main/java/com/rest/api/web/CarRest.java:113-117 | deleting an id that is not stored is 404 and changes nothing |
| CarRest.LackingAuthorityIsForbidden | src/main/java/com/rest/api/web/CarRest.java:89-93 | an authenticated caller without `CAR_READ` gets 403 with code 800 and the access-denied exception's own text, whatever that text is in the request's locale |
| CarRest.LocationNamesStoredCar | src/main/java/com/rest/api/web/CarRest.java:95-105 | for a request without a query, the `Location` is the request path, `/` and an id under which the store now holds the sent car's attributes |

## Left out

- OAuth2 wiring and the 401 it sends come from a filter in front of the endpoints, outside this core. In the model a missing caller reaches the error translation as missing-credentials. It has no handler of its own, so it falls to the catch-all 500.
- Querydsl filtering and the store's paging are inputs. `ListCars` takes the store's `Page` answer as given, with its content, total elements and total pages. `CeilDiv` describes the store's page count only for `ListNotFoundIffPastLastElement`.
- Id generation is a counter `nextId` in the service state. JPA's merge of a caller-supplied id on `add` is not modelled: `add` always stores under a fresh id.
- Bean validation is a parameter, a function from a car to its violations. The car's own constraint annotations are not part of this model. Validation is taken to run after the authority check.
- The text the security framework gives an access-denied exception is a parameter of every service operation. The framework takes it from its own message bundle in the request's locale, and that bundle is not part of this model.
- The message catalog is a parameter, as are the locale and `ZonedDateTime.now()` (a clock function indexed by reading count). Instants are integers.
- `BigDecimal` prices are integers.
- The JSON and HTTP transport, URI percent-encoding (`encode()`) and path normalisation are left out. Event publishing and dispatch are modelled as a direct call.
- The iteration order of the violations in a `ConstraintViolationException`, which is a set, is taken as a sequence. The order of `findAll` results is not modelled; the result is a set.
- Pagination.AddLinkHeaderOnPagedResourceRetrieval: does not model Java `int` overflow in `page + 1` or `totalPages - 1`. For any page the endpoint lets through, `LinkTargetsExist` shows every target is between 0 and `totalPages - 1`.
- CarService.Delete: the store's `delete(entity)` of an unknown entity is a no-op, so the car-not-found branch at line 79 of the service is never taken.
- CarService.Add: the two clock readings are distinct, so insert and update dates are equal only when the clock says so. With a monotone clock they are only shown ordered.
- The `FieldRest` endpoint is commented out in the source, and its service is not part of this model.

=== FILE: car_rest.dfy ===
/**
  The `/cars` endpoint. Each handler calls the service and either returns
  a response or lets the service's failure escape; `Serve` then hands an
  escaped failure to the error translation, as the framework does.
 */
module CarRest {
  import opened Optional
  import opened Decimal
  import opened Strings
  import opened Uris
  import opened Http
  import opened Pagination
  import opened Domain
  import opened CarService
  import opened ControllerAdvice

  datatype Body = NoBody | CarsBody(cars: seq<Car>) | CarBody(car: Car) | ErrorJson(error: ErrorBody)

  datatype Response = Response(status: int, headers: seq<Header>, body: Body)

  /** A handler's state change and its response or escaped failure. */
  datatype Exchange = Exchange(after: Service, outcome: Outcome<Response>)

  /** Whether a requested page lies past the last page, compared as the endpoint compares it. */
  predicate OutOfRange(page: int, totalPages: int) {
    page > totalPages - 1
  }

  /**
    `listCars`: ask the service for the page; a page index past the last
    page is not-found, raised before any header is written; otherwise the
    pagination headers from the store's totals and the request's own page
    and size, and the page's content as the body.
   */
  function ListCars(p: Principal, deniedText: string, request: PageRequest, answer: Page, current: UriBuilder): (r: Outcome<Response>)
    ensures r.Ok? <==> HasAuthority(p, CarRead) && request.page <= answer.totalPages - 1
    ensures !HasAuthority(p, CarRead) ==> r == Thrown(Denial(p, deniedText))
    ensures HasAuthority(p, CarRead) && request.page > answer.totalPages - 1 ==> r == Thrown(ResourceNotFound)
    ensures r.Ok? ==>
              && r.value.status == StatusOk
              && r.value.body == CarsBody(answer.content)
              && r.value.headers == AddLinkHeaderOnPagedResourceRetrieval(
                   current, answer.totalElements, request.page, answer.totalPages, request.size)
  {
    match FindAllPaginated(p, deniedText, answer)
    case Thrown(f) => Thrown(f)
    case Ok(resultPage) =>
      if OutOfRange(request.page, resultPage.totalPages) then Thrown(ResourceNotFound)
      else
        var headers := AddLinkHeaderOnPagedResourceRetrieval(
          current, resultPage.totalElements, request.page, resultPage.totalPages, request.size);
        Ok(Response(StatusOk, headers, CarsBody(resultPage.content)))
  }

  /** `getCar`: 200 with the stored car. */
  function GetCar(s: Service, p: Principal, deniedText: string, id: int): (r: Outcome<Response>)
    ensures r.Ok? <==> FindById(s, p, deniedText, id).Ok?
    ensures r.Ok? ==> r.value == Response(StatusOk, [], CarBody(s.cars[id]))
    ensures r.Thrown? ==> r.failure == FindById(s, p, deniedText, id).failure
  {
    match FindById(s, p, deniedText, id)
    case Thrown(f) => Thrown(f)
    case Ok(car) => Ok(Response(StatusOk, [], CarBody(car)))
  }

  /** The `Location` of a created car: the request URI with `/{id}` appended to its path. */
  function LocationHeader(current: UriBuilder, id: int): (h: Header)
    ensures h.name == "Location"
    ensures current.query == [] ==> h.value == current.path + "/" + FromInt(id)
  {
    Header("Location", ToUriString(AppendPath(current, "/" + FromInt(id))))
  }

  /** `addCar`: 201 with the new car's `Location` and no body. */
  function AddCar(s: Service, p: Principal, deniedText: string, now: Clock, validate: Validator, car: Car, current: UriBuilder): (r: Exchange)
    ensures var added := Add(s, p, deniedText, now, validate, car);
            && r.after == added.after
            && (r.outcome.Ok? <==> added.outcome.Ok?)
            && (r.outcome.Ok? ==>
                  r.outcome.value == Response(StatusCreated, [LocationHeader(current, added.outcome.value.id)], NoBody))
            && (r.outcome.Thrown? ==> r.outcome.failure == added.outcome.failure)
  {
    var added := Add(s, p, deniedText, now, validate, car);
    match added.outcome
    case Thrown(f) => Exchange(added.after, Thrown(f))
    case Ok(carIns) => Exchange(added.after, Ok(Response(StatusCreated, [LocationHeader(current, carIns.id)], NoBody)))
  }

  /** `updateCar`: 204 and no body. */
  function UpdateCar(s: Service, p: Principal, deniedText: string, now: Clock, validate: Validator, id: int, car: Car): (r: Exchange)
    ensures var updated := Update(s, p, deniedText, now, validate, id, car);
            && r.after == updated.after
            && (r.outcome.Ok? <==> updated.outcome.Ok?)
            && (r.outcome.Ok? ==> r.outcome.value == Response(StatusNoContent, [], NoBody))
            && (r.outcome.Thrown? ==> r.outcome.failure == updated.outcome.failure)
  {
    var updated := Update(s, p, deniedText, now, validate, id, car);
    match updated.outcome
    case Thrown(f) => Exchange(updated.after, Thrown(f))
    case Ok(_) => Exchange(updated.after, Ok(Response(StatusNoContent, [], NoBody)))
  }

  /** `deleteCar`: 204 and no body. */
  function DeleteCar(s: Service, p: Principal, deniedText: string, id: int): (r: Exchange)
    ensures var deleted := DeleteById(s, p, deniedText, id);
            && r.after == deleted.after
            && (r.outcome.Ok? <==> deleted.outcome.Ok?)
            && (r.outcome.Ok? ==> r.outcome.value == Response(StatusNoContent, [], NoBody))
            && (r.outcome.Thrown? ==> r.outcome.failure == deleted.outcome.failure)
  {
    var deleted := DeleteById(s, p, deniedText, id);
    match deleted.outcome
    case Thrown(f) => Exchange(deleted.after, Thrown(f))
    case Ok(_) => Exchange(deleted.after, Ok(Response(StatusNoContent, [], NoBody)))
  }

  /** The response the client sees: the handler's own, or the translation of what escaped it, with no headers. */
  function Serve(o: Outcome<Response>, ms: MessageSource, locale: Locale): (r: Response)
    ensures o.Ok? ==> r == o.value
    ensures o.Thrown? ==> r.headers == [] && r.status == Translate(o.failure, ms, locale).status
    ensures o.Thrown? ==> (r.body == NoBody <==> Translate(o.failure, ms, locale).body.None?)
    ensures o.Thrown? && Translate(o.failure, ms, locale).body.Some? ==>
              r.body == ErrorJson(Translate(o.failure, ms, locale).body.value)
  {
    match o
    case Ok(response) => response
    case Thrown(f) =>
      var h := Translate(f, ms, locale);
      Response(h.status, [], if h.body.Some? then ErrorJson(h.body.value) else NoBody)
  }

  /** A page past the last is a 404 without a body and without pagination headers. */
  lemma ListPastLastPageIsNotFound(p: Principal, deniedText: string, request: PageRequest, answer: Page, current: UriBuilder,
                                   ms: MessageSource, locale: Locale)
    requires HasAuthority(p, CarRead)
    requires request.page > answer.totalPages - 1
    ensures Serve(ListCars(p, deniedText, request, answer, current), ms, locale) == Response(StatusNotFound, [], NoBody)
  {
  }

  /** Even the first page of an empty listing is a 404, because `0 > 0 - 1`. */
  lemma EmptyListingFirstPageIsNotFound(p: Principal, deniedText: string, size: int, current: UriBuilder, ms: MessageSource, locale: Locale)
    requires HasAuthority(p, CarRead)
    ensures Serve(ListCars(p, deniedText, PageRequest(0, size), Page([], 0, 0), current), ms, locale)
         == Response(StatusNotFound, [], NoBody)
  {
  }

  /** The number of pages a store reports for `totalElements` elements, `size` per page. */
  function CeilDiv(totalElements: nat, size: nat): nat
    requires size > 0
  {
    (totalElements + size - 1) / size
  }

  lemma PastLastPageArithmetic(page: nat, size: nat, totalElements: nat)
    requires size > 0
    ensures page > CeilDiv(totalElements, size) - 1 <==> page * size >= totalElements
  {
    var c := CeilDiv(totalElements, size);
    assert c * size <= totalElements + size - 1 < (c + 1) * size;
    if page >= c {
      assert page * size >= c * size by {
        MultiplyMonotone(c, page, size);
      }
    } else {
      assert page * size <= (c - 1) * size by {
        MultiplyMonotone(page, c - 1, size);
      }
    }
  }

  lemma MultiplyMonotone(a: nat, b: nat, size: nat)
    requires a <= b
    ensures a * size <= b * size
  {
  }

  /**
    With a store that counts pages as `ceil(totalElements / size)`, a
    listing is not-found exactly when the requested page starts at or past
    the last element, so an empty store answers every page with not-found.
   */
  lemma ListNotFoundIffPastLastElement(p: Principal, deniedText: string, request: PageRequest, answer: Page, current: UriBuilder)
    requires HasAuthority(p, CarRead)
    requires request.page >= 0 && request.size > 0 && answer.totalElements >= 0
    requires answer.totalPages == CeilDiv(answer.totalElements, request.size)
    ensures ListCars(p, deniedText, request, answer, current) == Thrown(ResourceNotFound)
            <==> request.page * request.size >= answer.totalElements
  {
    PastLastPageArithmetic(request.page, request.size, answer.totalElements);
  }

  /**
    A listing the endpoint answers carries the store's totals and the
    request's page and size, readable back from the headers, and its links
    point only at pages that exist.
   */
  lemma ListedHeadersDescribeThePage(p: Principal, deniedText: string, request: PageRequest, answer: Page, current: UriBuilder)
    requires ListCars(p, deniedText, request, answer, current).Ok?
    requires request.page >= 0
    ensures var hs := ListCars(p, deniedText, request, answer, current).value.headers;
            && hs[0].value == FromInt(answer.totalElements) && Parse(hs[0].value) == Some(answer.totalElements)
            && hs[1].value == FromInt(request.page) && Parse(hs[1].value) == Some(request.page)
            && hs[2].value == FromInt(answer.totalPages) && Parse(hs[2].value) == Some(answer.totalPages)
            && hs[3].value == FromInt(request.size) && Parse(hs[3].value) == Some(request.size)
            && hs[4].value == Join(LinkEntries(current, request.page, answer.totalPages, request.size), ", ")
    ensures forall rel :: rel in Relations(request.page, answer.totalPages) ==>
              0 <= TargetPage(rel, request.page, answer.totalPages) <= answer.totalPages - 1
  {
    LinkTargetsExist(request.page, answer.totalPages);
  }

  /** Reading an id that is not stored is a 404 with code 1 and the catalog's `car.notfound` text. */
  lemma GetMissingCarIsNotFound(s: Service, p: Principal, deniedText: string, id: int, ms: MessageSource, locale: Locale)
    requires HasAuthority(p, CarRead) && id !in s.cars
    ensures Serve(GetCar(s, p, deniedText, id), ms, locale)
         == Response(StatusNotFound, [], ErrorJson(Error(1, ms.getMessage("car.notfound", locale))))
  {
  }

  /** Updating an id that is not stored is a 404 and changes nothing. */
  lemma UpdateMissingCarIsNotFound(s: Service, p: Principal, deniedText: string, now: Clock, validate: Validator, id: int, car: Car,
                                   ms: MessageSource, locale: Locale)
    requires HasAuthority(p, CarUpdate) && |validate(car)| == 0 && id !in s.cars
    ensures var x := UpdateCar(s, p, deniedText, now, validate, id, car);
            x.after == s && Serve(x.outcome, ms, locale).status == StatusNotFound
  {
  }

  /** Deleting an id that is not stored is a 404 and changes nothing. */
  lemma DeleteMissingCarIsNotFound(s: Service, p: Principal, deniedText: string, id: int, ms: MessageSource, locale: Locale)
    requires HasAuthority(p, CarDelete) && id !in s.cars
    ensures var x := DeleteCar(s, p, deniedText, id);
            x.after == s && Serve(x.outcome, ms, locale).status == StatusNotFound
  {
  }

  /** A caller lacking the authority gets 403 with code 800 and the access-denied exception's own text, whatever the target. */
  lemma LackingAuthorityIsForbidden(s: Service, authorities: set<string>, deniedText: string, id: int, ms: MessageSource, locale: Locale)
    requires CarRead !in authorities
    ensures Serve(GetCar(s, Authenticated(authorities), deniedText, id), ms, locale)
         == Response(StatusForbidden, [], ErrorJson(Error(800, deniedText)))
  {
  }

  /**
    The `Location` of a created car names the id it is stored under: with
    no query in the request, it is the request path, `/`, and that id.
   */
  lemma LocationNamesStoredCar(s: Service, p: Principal, deniedText: string, now: Clock, validate: Validator, car: Car, current: UriBuilder)
    requires AddCar(s, p, deniedText, now, validate, car, current).outcome.Ok?
    requires current.query == []
    ensures var x := AddCar(s, p, deniedText, now, validate, car, current);
            var location := x.outcome.value.headers[0].value;
            exists id ::
              && id in x.after.cars && SameAttributes(x.after.cars[id], car)
              && location == current.path + "/" + FromInt(id)
  {
    var added := Add(s, p, deniedText, now, validate, car);
    var id := added.outcome.value.id;
    assert id in added.after.cars && SameAttributes(added.after.cars[id], car);
  }
}

=== FILE: car_service.dfy ===
/**
  The car service as a state machine over the store.

  Every operation first checks the one authority it is annotated with; a
  caller without it gets the access-denied failure (or, with no caller at
  all, the missing-credentials failure) and the store is untouched. Only
  then are `@Valid` arguments validated, and only then is the store read or
  written.

  The store is a map from id to car plus the next id it will hand out; the
  clock is a function from the number of earlier readings to an instant, so
  "two consecutive `now()` calls" are `now(readings)` and `now(readings + 1)`.
 */
module CarService {
  import opened Optional
  import opened Domain

  /** Instant of the `n`-th clock reading. */
  type Clock = nat -> Time

  /** Bean validation of a car: the violations it finds, none for a valid car. */
  type Validator = Car -> seq<Violation>

  datatype Service = Service(cars: map<int, Car>, nextId: int, readings: nat)

  /** A state change together with what the operation returned or raised. */
  datatype Step<+T> = Step(after: Service, outcome: Outcome<T>)

  /** Each stored car carries its own key, and the id generator is past every key. */
  predicate Valid(s: Service) {
    forall k :: k in s.cars ==> s.cars[k].id == k && k < s.nextId
  }

  ghost predicate Monotone(now: Clock) {
    forall i: nat, j: nat :: i <= j ==> now(i) <= now(j)
  }

  /** No stored date lies after the clock's next reading. */
  ghost predicate StampsNotAfter(s: Service, now: Clock) {
    forall k :: k in s.cars ==> DatesNotAfter(s.cars[k], now(s.readings))
  }

  predicate DatesNotAfter(c: Car, t: Time) {
    (c.insertDate.Some? ==> c.insertDate.value <= t) && (c.updateDate.Some? ==> c.updateDate.value <= t)
  }

  /** `findById`: the stored car, or car-not-found. */
  function FindById(s: Service, p: Principal, deniedText: string, id: int): (r: Outcome<Car>)
    ensures r.Ok? <==> HasAuthority(p, CarRead) && id in s.cars
    ensures r.Ok? ==> r.value == s.cars[id]
    ensures !HasAuthority(p, CarRead) ==> r == Thrown(Denial(p, deniedText))
    ensures HasAuthority(p, CarRead) && id !in s.cars ==> r == Thrown(CarNotFound)
  {
    if !HasAuthority(p, CarRead) then Thrown(Denial(p, deniedText))
    else if id in s.cars then Ok(s.cars[id])
    else Thrown(CarNotFound)
  }

  /** `findAll`: every stored car (the store's iteration order is not modelled). */
  function FindAll(s: Service, p: Principal, deniedText: string): (r: Outcome<set<Car>>)
    ensures r.Ok? <==> HasAuthority(p, CarRead)
    ensures !HasAuthority(p, CarRead) ==> r == Thrown(Denial(p, deniedText))
    ensures r.Ok? ==> forall k :: k in s.cars ==> s.cars[k] in r.value
    ensures r.Ok? && Valid(s) ==> forall c :: c in r.value ==> c.id in s.cars && s.cars[c.id] == c
  {
    if !HasAuthority(p, CarRead) then Thrown(Denial(p, deniedText))
    else Ok(set k | k in s.cars :: s.cars[k])
  }

  /** `findAllPaginated`: the store's page, unchanged; out-of-range pages are not rejected here. */
  function FindAllPaginated(p: Principal, deniedText: string, answer: Page): (r: Outcome<Page>)
    ensures r.Ok? <==> HasAuthority(p, CarRead)
    ensures r.Ok? ==> r.value == answer
    ensures !HasAuthority(p, CarRead) ==> r == Thrown(Denial(p, deniedText))
  {
    if !HasAuthority(p, CarRead) then Thrown(Denial(p, deniedText)) else Ok(answer)
  }

  /**
    `add`: stamps the insert date, then the update date, from two clock
    readings and saves the car under an id the store has not used.
   */
  function Add(s: Service, p: Principal, deniedText: string, now: Clock, validate: Validator, entity: Car): (r: Step<Car>)
    ensures !HasAuthority(p, CarCreate) ==> r == Step(s, Thrown(Denial(p, deniedText)))
    ensures HasAuthority(p, CarCreate) && |validate(entity)| > 0 ==>
              r == Step(s, Thrown(ConstraintViolation(validate(entity))))
    ensures r.outcome.Ok? <==> HasAuthority(p, CarCreate) && |validate(entity)| == 0
    ensures r.outcome.Ok? ==>
              var c := r.outcome.value;
              && SameAttributes(c, entity)
              && c.id in r.after.cars && r.after.cars[c.id] == c
              && r.after.cars.Keys == s.cars.Keys + {c.id}
              && (forall k :: k in s.cars && k != c.id ==> r.after.cars[k] == s.cars[k])
              && c.insertDate == Some(now(s.readings)) && c.updateDate == Some(now(s.readings + 1))
              && r.after.readings == s.readings + 2
    ensures r.outcome.Ok? && Valid(s) ==> r.outcome.value.id !in s.cars
    ensures r.outcome.Ok? && Monotone(now) ==>
              r.outcome.value.insertDate.value <= r.outcome.value.updateDate.value
    ensures Valid(s) ==> Valid(r.after)
  {
    if !HasAuthority(p, CarCreate) then Step(s, Thrown(Denial(p, deniedText)))
    else if |validate(entity)| > 0 then Step(s, Thrown(ConstraintViolation(validate(entity))))
    else
      var stamped := entity.(insertDate := Some(now(s.readings)), updateDate := Some(now(s.readings + 1)));
      var saved := stamped.(id := s.nextId);
      Step(Service(s.cars[saved.id := saved], s.nextId + 1, s.readings + 2), Ok(saved))
  }

  /**
    `update`: for a stored id, saves the caller's car with only the id and
    the update date overwritten; every other field, the insert date
    included, is the caller's.
   */
  function Update(s: Service, p: Principal, deniedText: string, now: Clock, validate: Validator, id: int, entity: Car): (r: Step<()>)
    ensures !HasAuthority(p, CarUpdate) ==> r == Step(s, Thrown(Denial(p, deniedText)))
    ensures HasAuthority(p, CarUpdate) && |validate(entity)| > 0 ==>
              r == Step(s, Thrown(ConstraintViolation(validate(entity))))
    ensures HasAuthority(p, CarUpdate) && |validate(entity)| == 0 && id !in s.cars ==>
              r == Step(s, Thrown(CarNotFound))
    ensures r.outcome.Ok? <==> HasAuthority(p, CarUpdate) && |validate(entity)| == 0 && id in s.cars
    ensures r.outcome.Ok? ==>
              && r.after.cars.Keys == s.cars.Keys
              && (forall k :: k in s.cars && k != id ==> r.after.cars[k] == s.cars[k])
              && var c := r.after.cars[id];
              && SameAttributes(c, entity) && c.id == id && c.insertDate == entity.insertDate
              && c.updateDate == Some(now(s.readings))
              && r.after.readings == s.readings + 1
    ensures Valid(s) ==> Valid(r.after)
  {
    if !HasAuthority(p, CarUpdate) then Step(s, Thrown(Denial(p, deniedText)))
    else if |validate(entity)| > 0 then Step(s, Thrown(ConstraintViolation(validate(entity))))
    else if id in s.cars then
      var saved := entity.(id := id, updateDate := Some(now(s.readings)));
      Step(s.(cars := s.cars[id := saved], readings := s.readings + 1), Ok(()))
    else Step(s, Thrown(CarNotFound))
  }

  /** The store's `deleteById`: the map without the key, or its empty-result error. */
  function StoreDeleteById(cars: map<int, Car>, id: int): Option<map<int, Car>> {
    if id in cars then Some(cars - {id}) else None
  }

  /** `deleteById`: removes a stored id; the store's empty-result error becomes car-not-found. */
  function DeleteById(s: Service, p: Principal, deniedText: string, id: int): (r: Step<()>)
    ensures !HasAuthority(p, CarDelete) ==> r == Step(s, Thrown(Denial(p, deniedText)))
    ensures HasAuthority(p, CarDelete) && id !in s.cars ==> r == Step(s, Thrown(CarNotFound))
    ensures r.outcome.Ok? <==> HasAuthority(p, CarDelete) && id in s.cars
    ensures r.outcome.Ok? ==>
              && r.after.cars.Keys == s.cars.Keys - {id}
              && (forall k :: k in r.after.cars ==> r.after.cars[k] == s.cars[k])
              && r.after.nextId == s.nextId && r.after.readings == s.readings
    ensures Valid(s) ==> Valid(r.after)
  {
    if !HasAuthority(p, CarDelete) then Step(s, Thrown(Denial(p, deniedText)))
    else match StoreDeleteById(s.cars, id)
      case Some(rest) => Step(s.(cars := rest), Ok(()))
      case None => Step(s, Thrown(CarNotFound))
  }

  /**
    `delete`: removes the stored car with the entity's id. The store
    deletes a car it does not hold without complaint, so the
    empty-result branch of the source is never taken.
   */
  function Delete(s: Service, p: Principal, deniedText: string, entity: Car): (r: Step<()>)
    ensures !HasAuthority(p, CarDelete) ==> r == Step(s, Thrown(Denial(p, deniedText)))
    ensures r.outcome.Ok? <==> HasAuthority(p, CarDelete)
    ensures r.outcome.Ok? ==>
              && r.after.cars.Keys == s.cars.Keys - {entity.id}
              && (forall k :: k in r.after.cars ==> r.after.cars[k] == s.cars[k])
    ensures Valid(s) ==> Valid(r.after)
  {
    if !HasAuthority(p, CarDelete) then Step(s, Thrown(Denial(p, deniedText)))
    else Step(s.(cars := s.cars - {entity.id}), Ok(()))
  }

  /** The service's operations, as one closed set. */
  datatype Op =
    | FindByIdOp(id: int)
    | FindAllOp
    | FindAllPaginatedOp(answer: Page)
    | AddOp(car: Car)
    | UpdateOp(id: int, car: Car)
    | DeleteByIdOp(id: int)
    | DeleteOp(car: Car)

  datatype Reply = CarReply(car: Car) | CarsReply(cars: set<Car>) | PageReply(page: Page) | Done

  /** The authority each operation is annotated with. */
  function RequiredAuthority(op: Op): string {
    match op
    case FindByIdOp(_) => CarRead
    case FindAllOp => CarRead
    case FindAllPaginatedOp(_) => CarRead
    case AddOp(_) => CarCreate
    case UpdateOp(_, _) => CarUpdate
    case DeleteByIdOp(_) => CarDelete
    case DeleteOp(_) => CarDelete
  }

  function Lift<T>(o: Outcome<T>, wrap: T -> Reply): Outcome<Reply> {
    match o
    case Ok(v) => Ok(wrap(v))
    case Thrown(f) => Thrown(f)
  }

  /** One call of the service: the transition `(store, caller, clock, op) -> (store', outcome)`. */
  function Apply(s: Service, p: Principal, deniedText: string, now: Clock, validate: Validator, op: Op): Step<Reply> {
    match op
    case FindByIdOp(id) => Step(s, Lift(FindById(s, p, deniedText, id), c => CarReply(c)))
    case FindAllOp => Step(s, Lift(FindAll(s, p, deniedText), cs => CarsReply(cs)))
    case FindAllPaginatedOp(answer) => Step(s, Lift(FindAllPaginated(p, deniedText, answer), pg => PageReply(pg)))
    case AddOp(car) =>
      var r := Add(s, p, deniedText, now, validate, car);
      Step(r.after, Lift(r.outcome, c => CarReply(c)))
    case UpdateOp(id, car) =>
      var r := Update(s, p, deniedText, now, validate, id, car);
      Step(r.after, Lift(r.outcome, _ => Done))
    case DeleteByIdOp(id) =>
      var r := DeleteById(s, p, deniedText, id);
      Step(r.after, Lift(r.outcome, _ => Done))
    case DeleteOp(car) =>
      var r := Delete(s, p, deniedText, car);
      Step(r.after, Lift(r.outcome, _ => Done))
  }

  /**
    The authority check comes first: without the authority every operation
    fails the same way and leaves the store alone, whether or not its
    target exists.
   */
  lemma AuthorityCheckedFirst(s: Service, p: Principal, deniedText: string, now: Clock, validate: Validator, op: Op)
    requires !HasAuthority(p, RequiredAuthority(op))
    ensures Apply(s, p, deniedText, now, validate, op) == Step(s, Thrown(Denial(p, deniedText)))
  {
  }

  /** With the authority, no operation fails for lack of it. */
  lemma AuthorizedNeverDenied(s: Service, p: Principal, deniedText: string, now: Clock, validate: Validator, op: Op)
    requires HasAuthority(p, RequiredAuthority(op))
    ensures !Apply(s, p, deniedText, now, validate, op).outcome.Thrown? ||
            !(Apply(s, p, deniedText, now, validate, op).outcome.failure.AccessDenied? ||
              Apply(s, p, deniedText, now, validate, op).outcome.failure.AuthenticationCredentialsNotFound?)
  {
  }

  /** A failing call never changes the store. */
  lemma FailureLeavesStore(s: Service, p: Principal, deniedText: string, now: Clock, validate: Validator, op: Op)
    requires Apply(s, p, deniedText, now, validate, op).outcome.Thrown?
    ensures Apply(s, p, deniedText, now, validate, op).after == s
  {
  }

  /** Every operation keeps each stored car under its own id. */
  lemma ApplyPreservesValid(s: Service, p: Principal, deniedText: string, now: Clock, validate: Validator, op: Op)
    requires Valid(s)
    ensures Valid(Apply(s, p, deniedText, now, validate, op).after)
  {
  }

  /**
    With a monotone clock, no operation stamps a date later than the next
    reading, provided an updating caller sends no date from the future.
   */
  lemma ApplyKeepsStampsNotAfter(s: Service, p: Principal, deniedText: string, now: Clock, validate: Validator, op: Op)
    requires Monotone(now) && StampsNotAfter(s, now)
    requires op.UpdateOp? ==> DatesNotAfter(op.car, now(s.readings))
    ensures StampsNotAfter(Apply(s, p, deniedText, now, validate, op).after, now)
  {
    var after := Apply(s, p, deniedText, now, validate, op).after;
    forall k | k in after.cars
      ensures DatesNotAfter(after.cars[k], now(after.readings))
    {
      assert now(s.readings) <= now(after.readings);
      if k in s.cars && after.cars[k] == s.cars[k] {
        assert DatesNotAfter(s.cars[k], now(s.readings));
      }
    }
  }

  /** What `add` returned is what `findById` of its id then gives back. */
  lemma AddThenFindById(s: Service, p: Principal, deniedText: string, reader: Principal, now: Clock, validate: Validator, entity: Car)
    requires Add(s, p, deniedText, now, validate, entity).outcome.Ok?
    requires HasAuthority(reader, CarRead)
    ensures var r := Add(s, p, deniedText, now, validate, entity);
            var found := FindById(r.after, reader, deniedText, r.outcome.value.id);
            found == Ok(r.outcome.value) && SameAttributes(found.value, entity)
  {
  }

  /**
    Read a car, change it and send it back: with a monotone clock the
    stored update date is not before the insert date the caller read.
   */
  lemma ReadThenUpdateKeepsDateOrder(s: Service, p: Principal, deniedText: string, now: Clock, validate: Validator,
                                     id: int, entity: Car)
    requires Monotone(now) && StampsNotAfter(s, now)
    requires FindById(s, p, deniedText, id).Ok?
    requires entity.insertDate == FindById(s, p, deniedText, id).value.insertDate && entity.insertDate.Some?
    requires Update(s, p, deniedText, now, validate, id, entity).outcome.Ok?
    ensures var c := Update(s, p, deniedText, now, validate, id, entity).after.cars[id];
            c.insertDate.value <= c.updateDate.value
  {
    assert DatesNotAfter(s.cars[id], now(s.readings));
  }

  /**
    `update` does not keep the stored insert date: a caller that sends none
    erases it.
   */
  lemma UpdateCanEraseInsertDate(deniedText: string)
    ensures var stored := Car(1, "BMW", "320d", 1, 40000, Some(5), Some(6));
            var s := Service(map[1 := stored], 2, 7);
            var sent := stored.(insertDate := None);
            var p := Authenticated({CarUpdate});
            var r := Update(s, p, deniedText, n => n, _ => [], 1, sent);
            r.outcome.Ok? && r.after.cars[1].insertDate == None && stored.insertDate == Some(5)
  {
  }
}

=== FILE: controller_advice.dfy ===
/**
  The exception handlers, as one total function from the failure raised to
  the response status and the optional JSON error body.

  Localised texts come from the message catalog, which is a parameter:
  `getMessage(key, locale)` for a message key, `resolve(error, locale)`
  for a binding field error.
 */
module ControllerAdvice {
  import opened Optional
  import opened Domain
  import opened Http

  type Locale = string

  datatype MessageSource = MessageSource(
    getMessage: (string, Locale) -> string,
    resolve: (BindingError, Locale) -> string)

  datatype FieldError = FieldError(code: int, field: string, message: string)

  /** The JSON error bodies: a plain error, or one with per-field errors. */
  datatype ErrorBody =
    | Error(code: int, message: string)
    | ValidationError(code: int, message: string, fieldErrors: seq<FieldError>)

  /** What a handler produces: the `@ResponseStatus` and the body, `None` for an empty one. */
  datatype Handled = Handled(status: int, body: Option<ErrorBody>)

  const ValidationErrorKey := "exception.validation"
  const InternalServerErrorKey := "exception.internal.server.error"
  const ValidationErrorCode := 100
  const FieldErrorCode := 1
  const AccessDeniedCode := 800
  const InternalErrorCode := 999

  /** `lastIndexOf(c)`: the last position holding `c`, or -1. */
  function LastIndexOf(s: string, c: char): (i: int)
    ensures -1 <= i < |s|
    ensures i >= 0 ==> s[i] == c
    ensures forall j :: i < j < |s| ==> s[j] != c
    decreases |s|
  {
    if |s| == 0 then -1
    else if s[|s| - 1] == c then |s| - 1
    else LastIndexOf(s[..|s| - 1], c)
  }

  /**
    The field name of a violation: what follows the last `.` of its
    property path, or the whole path when it has none. The result is the
    longest suffix of the path without a `.`.
   */
  function FieldName(propertyPath: string): (field: string)
    ensures '.' !in field
    ensures |field| <= |propertyPath| && propertyPath[|propertyPath| - |field|..] == field
    ensures '.' in propertyPath ==> propertyPath[|propertyPath| - |field| - 1] == '.'
    ensures '.' !in propertyPath ==> field == propertyPath
  {
    var index := LastIndexOf(propertyPath, '.');
    if index == -1 then propertyPath else propertyPath[index + 1..]
  }

  /** Taking the field name of a field name changes nothing. */
  lemma FieldNameIdempotent(propertyPath: string)
    ensures FieldName(FieldName(propertyPath)) == FieldName(propertyPath)
  {
  }

  /** One field error per violation, in order, named by `FieldName` and keeping the violation's own message. */
  function ViolationFieldErrors(violations: seq<Violation>): (errors: seq<FieldError>)
    ensures |errors| == |violations|
    ensures forall i :: 0 <= i < |violations| ==>
              errors[i] == FieldError(FieldErrorCode, FieldName(violations[i].propertyPath), violations[i].message)
    decreases |violations|
  {
    if |violations| == 0 then []
    else
      var last := violations[|violations| - 1];
      ViolationFieldErrors(violations[..|violations| - 1])
        + [FieldError(FieldErrorCode, FieldName(last.propertyPath), last.message)]
  }

  /** One field error per binding error, in order, with the catalog's message for it. */
  function BindingFieldErrors(errors: seq<BindingError>, ms: MessageSource, locale: Locale): (fieldErrors: seq<FieldError>)
    ensures |fieldErrors| == |errors|
    ensures forall i :: 0 <= i < |errors| ==>
              fieldErrors[i] == FieldError(FieldErrorCode, errors[i].field, ms.resolve(errors[i], locale))
    decreases |errors|
  {
    if |errors| == 0 then []
    else
      var last := errors[|errors| - 1];
      BindingFieldErrors(errors[..|errors| - 1], ms, locale)
        + [FieldError(FieldErrorCode, last.field, ms.resolve(last, locale))]
  }

  /**
    `handleConstraintViolationException`: the validation body with code 100
    and the catalog's validation text, and one bare-named field error per
    violation carrying the violation's own message.
   */
  function HandleConstraintViolation(violations: seq<Violation>, ms: MessageSource, locale: Locale): (body: ErrorBody)
    ensures body.ValidationError? && body.code == ValidationErrorCode
    ensures body.message == ms.getMessage(ValidationErrorKey, locale)
    ensures |body.fieldErrors| == |violations|
    ensures forall i :: 0 <= i < |violations| ==>
              && body.fieldErrors[i].code == FieldErrorCode
              && body.fieldErrors[i].field == FieldName(violations[i].propertyPath)
              && body.fieldErrors[i].message == violations[i].message
  {
    ValidationError(ValidationErrorCode, ms.getMessage(ValidationErrorKey, locale), ViolationFieldErrors(violations))
  }

  /** Whether the failure is one of the request-validation kinds, all answered with 400. */
  predicate IsValidationFailure(f: Failure) {
    f.MethodArgumentNotValid? || f.ConstraintViolation? || f.TransactionSystem?
  }

  /**
    Every `@ExceptionHandler`, picked by the failure's kind; a kind without
    a handler of its own falls to the catch-all handler.
   */
  function Translate(f: Failure, ms: MessageSource, locale: Locale): (h: Handled)
    ensures h.status in {StatusBadRequest, StatusForbidden, StatusNotFound, StatusInternalServerError}
    ensures h.status == StatusNotFound <==> f.ResourceNotFound? || f.CarNotFound?
    ensures h.status == StatusForbidden <==> f.AccessDenied?
    ensures h.status == StatusBadRequest <==> IsValidationFailure(f)
    ensures h.body.None? <==> f.ResourceNotFound? || (f.TransactionSystem? && f.rootCause.OtherCause?)
    ensures h.status == StatusInternalServerError ==>
              h.body == Some(Error(InternalErrorCode, ms.getMessage(InternalServerErrorKey, locale)))
    ensures f.MethodArgumentNotValid? ==>
              h.body == Some(ValidationError(ValidationErrorCode, ms.getMessage(ValidationErrorKey, locale),
                                             BindingFieldErrors(f.fieldErrors, ms, locale)))
    ensures h.status == StatusBadRequest && h.body.Some? ==>
              && h.body.value.ValidationError?
              && h.body.value.code == ValidationErrorCode
              && h.body.value.message == ms.getMessage(ValidationErrorKey, locale)
  {
    match f
    case ResourceNotFound => Handled(StatusNotFound, None)
    case CarNotFound =>
      Handled(StatusNotFound, Some(Error(CarNotFoundCode, ms.getMessage(CarNotFoundKey, locale))))
    case MethodArgumentNotValid(errors) =>
      Handled(StatusBadRequest, Some(ValidationError(ValidationErrorCode, ms.getMessage(ValidationErrorKey, locale),
                                                     BindingFieldErrors(errors, ms, locale))))
    case ConstraintViolation(violations) =>
      Handled(StatusBadRequest, Some(HandleConstraintViolation(violations, ms, locale)))
    case TransactionSystem(cause) =>
      if cause.ViolationCause? then Handled(StatusBadRequest, Some(HandleConstraintViolation(cause.violations, ms, locale)))
      else Handled(StatusBadRequest, None)
    case AccessDenied(message) => Handled(StatusForbidden, Some(Error(AccessDeniedCode, message)))
    case AuthenticationCredentialsNotFound =>
      Handled(StatusInternalServerError, Some(Error(InternalErrorCode, ms.getMessage(InternalServerErrorKey, locale))))
    case Internal(_) =>
      Handled(StatusInternalServerError, Some(Error(InternalErrorCode, ms.getMessage(InternalServerErrorKey, locale))))
  }

  /**
    A binding failure is 400 with the validation body: code 100, the
    catalog's validation text, and one field error per binding error, in
    order, with code 1, its field and the catalog's message for it.
   */
  lemma BindingFailureCarriesFieldErrors(errors: seq<BindingError>, ms: MessageSource, locale: Locale)
    ensures var h := Translate(MethodArgumentNotValid(errors), ms, locale);
            && h.status == StatusBadRequest
            && h.body.Some? && h.body.value.ValidationError?
            && h.body.value.code == 100
            && h.body.value.message == ms.getMessage("exception.validation", locale)
            && |h.body.value.fieldErrors| == |errors|
            && forall i :: 0 <= i < |errors| ==>
                 h.body.value.fieldErrors[i] == FieldError(1, errors[i].field, ms.resolve(errors[i], locale))
  {
  }

  /** A transaction failure caused by constraint violations is answered exactly like those violations. */
  lemma TransactionUnwrapsViolations(violations: seq<Violation>, ms: MessageSource, locale: Locale)
    ensures Translate(TransactionSystem(ViolationCause(violations)), ms, locale)
         == Translate(ConstraintViolation(violations), ms, locale)
  {
  }

  /** Any other root cause gives 400 with no body at all. */
  lemma TransactionOtherCauseHasNoBody(message: string, ms: MessageSource, locale: Locale)
    ensures Translate(TransactionSystem(OtherCause(message)), ms, locale) == Handled(StatusBadRequest, None)
  {
  }

  /** The internal-error body never reveals anything about the exception. */
  lemma InternalErrorHidesDetail(m1: string, m2: string, ms: MessageSource, locale: Locale)
    ensures Translate(Internal(m1), ms, locale) == Translate(Internal(m2), ms, locale)
  {
  }

  /**
    A constraint-violation answer has one field error per violation, each
    named by a bare field (no `.`, a suffix of the path) and carrying the
    violation's own message, whatever the catalog says.
   */
  lemma ViolationFieldErrorsAreBare(violations: seq<Violation>, ms: MessageSource, other: MessageSource, locale: Locale)
    ensures var h := Translate(ConstraintViolation(violations), ms, locale);
            && h.body.Some? && |h.body.value.fieldErrors| == |violations|
            && forall i :: 0 <= i < |violations| ==>
                 var fe := h.body.value.fieldErrors[i];
                 var path := violations[i].propertyPath;
                 && '.' !in fe.field && |fe.field| <= |path| && path[|path| - |fe.field|..] == fe.field
                 && fe.message == violations[i].message
    ensures Translate(ConstraintViolation(violations), ms, locale).body.value.fieldErrors
         == Translate(ConstraintViolation(violations), other, locale).body.value.fieldErrors
  {
  }

  /** Car-not-found carries the exception's code 1 and the catalog's text for `car.notfound`. */
  lemma CarNotFoundBody(ms: MessageSource, locale: Locale)
    ensures Translate(CarNotFound, ms, locale)
         == Handled(StatusNotFound, Some(Error(1, ms.getMessage("car.notfound", locale))))
  {
  }

  /** Access denied carries code 800 and the exception's own message, not a catalog text. */
  lemma AccessDeniedBody(message: string, ms: MessageSource, locale: Locale)
    ensures Translate(AccessDenied(message), ms, locale) == Handled(StatusForbidden, Some(Error(800, message)))
  {
  }
}

=== FILE: decimal.dfy ===
/**
  Decimal rendering of integers, as Java's string concatenation `"" + n`
  renders an `int` or a `long`: an optional minus sign followed by the
  digits of the magnitude, without leading zeros.

  `Parse` reads such a rendering back; the round trip `Parse(FromInt(n))`
  is what makes the pagination headers and the query parameters carry
  their inputs unchanged.
 */
module Decimal {
  import opened Optional

  predicate IsDigit(c: char) {
    '0' <= c <= '9'
  }

  predicate AllDigits(s: string) {
    forall i :: 0 <= i < |s| ==> IsDigit(s[i])
  }

  function DigitChar(d: nat): (c: char)
    requires d < 10
    ensures IsDigit(c)
  {
    (d + '0' as int) as char
  }

  function DigitValue(c: char): (d: nat)
    requires IsDigit(c)
    ensures d < 10
  {
    c as int - '0' as int
  }

  /** The digits of `n`, most significant first. */
  function NatDigits(n: nat): (s: string)
    ensures |s| > 0 && AllDigits(s)
    ensures |s| > 1 ==> s[0] != '0'
    ensures n > 0 ==> s[0] != '0'
    decreases n
  {
    if n < 10 then [DigitChar(n)] else NatDigits(n / 10) + [DigitChar(n % 10)]
  }

  /**
    Java's rendering of an integral value: canonical decimal, so zero is
    `"0"`, no other value starts with a `0`, and a `-` is followed by a
    non-zero digit.
   */
  function FromInt(n: int): (s: string)
    ensures |s| > 0
    ensures n >= 0 <==> AllDigits(s)
    ensures n < 0 <==> s[0] == '-'
    ensures n == 0 ==> s == "0"
    ensures n >= 0 && |s| > 1 ==> s[0] != '0'
    ensures n < 0 ==> |s| > 1 && s[1] != '0' && AllDigits(s[1..])
  {
    if n < 0 then
      var s := "-" + NatDigits(-n);
      assert !IsDigit(s[0]);
      s
    else NatDigits(n)
  }

  /** The value of a non-empty digit string, most significant digit first. */
  function ParseNat(s: string): nat
    requires |s| > 0 && AllDigits(s)
    decreases |s|
  {
    if |s| == 1 then DigitValue(s[0])
    else ParseNat(s[..|s| - 1]) * 10 + DigitValue(s[|s| - 1])
  }

  /** Reads an optionally signed decimal numeral; `None` for anything else. */
  function Parse(s: string): Option<int> {
    if |s| > 0 && AllDigits(s) then Some(ParseNat(s))
    else if |s| > 1 && s[0] == '-' && AllDigits(s[1..]) then Some(0 - ParseNat(s[1..]) as int)
    else None
  }

  lemma {:induction false} ParseNatDigits(n: nat)
    ensures ParseNat(NatDigits(n)) == n
    decreases n
  {
    if n >= 10 {
      var s := NatDigits(n);
      assert s == NatDigits(n / 10) + [DigitChar(n % 10)];
      assert s[..|s| - 1] == NatDigits(n / 10);
      ParseNatDigits(n / 10);
    }
  }

  /** Every rendering reads back as the value it renders. */
  lemma RoundTrip(n: int)
    ensures Parse(FromInt(n)) == Some(n)
  {
    if n < 0 {
      var s := FromInt(n);
      assert s[1..] == NatDigits(-n);
      ParseNatDigits(-n);
    } else {
      ParseNatDigits(n);
    }
  }

  /** Distinct values never share a rendering. */
  lemma FromIntInjective(a: int, b: int)
    requires FromInt(a) == FromInt(b)
    ensures a == b
  {
    RoundTrip(a);
    RoundTrip(b);
  }
}

=== FILE: domain.dfy ===
/**
  The entity, the caller and the failures that the service, the endpoint
  and the error translation share.
 */
module Domain {
  import opened Optional

  /** Instants are plain integers; only their order matters. */
  type Time = int

  /**
    A car as stored and as sent by clients. `price` stands for the
    `BigDecimal` amount; the two dates are `null` until the service stamps them.
   */
  datatype Car = Car(
    id: int,
    brand: string,
    model: string,
    version: int,
    price: int,
    insertDate: Option<Time>,
    updateDate: Option<Time>)

  /** The same client-supplied attributes (everything but the id and the two dates). */
  predicate SameAttributes(a: Car, b: Car) {
    a.brand == b.brand && a.model == b.model && a.version == b.version && a.price == b.price
  }

  /** The authenticated caller with its granted authorities, or nobody. */
  datatype Principal = Anonymous | Authenticated(authorities: set<string>)

  const CarRead := "CAR_READ"
  const CarCreate := "CAR_CREATE"
  const CarUpdate := "CAR_UPDATE"
  const CarDelete := "CAR_DELETE"

  /** `hasAuthority(a)`: only an authenticated caller can hold an authority. */
  predicate HasAuthority(p: Principal, authority: string) {
    p.Authenticated? && authority in p.authorities
  }

  /** One bean-validation violation: where it is and what it says. */
  datatype Violation = Violation(propertyPath: string, message: string)

  /** One field error of a failed request-body binding, resolved through the message catalog. */
  datatype BindingError = BindingError(field: string, codes: seq<string>, defaultMessage: string)

  /** The root cause of a transaction failure. */
  datatype RootCause = ViolationCause(violations: seq<Violation>) | OtherCause(message: string)

  /** Every exception that can reach the error translation. */
  datatype Failure =
    | ResourceNotFound
    | CarNotFound
    | MethodArgumentNotValid(fieldErrors: seq<BindingError>)
    | ConstraintViolation(violations: seq<Violation>)
    | TransactionSystem(rootCause: RootCause)
    | AccessDenied(message: string)
    | AuthenticationCredentialsNotFound
    | Internal(message: string)

  /** The code and message key a `CarNotFoundException` carries. */
  const CarNotFoundCode := 1
  const CarNotFoundKey := "car.notfound"

  /**
    What the authorization check raises for a caller that lacks the
    authority. `deniedText` is the message the security framework gives the
    access-denied exception: it comes from the framework's own message
    bundle, in the request's locale, so it is a parameter here.
   */
  function Denial(p: Principal, deniedText: string): (f: Failure)
    ensures f.AccessDenied? <==> p.Authenticated?
    ensures f.AccessDenied? ==> f.message == deniedText
    ensures f.AuthenticationCredentialsNotFound? <==> p.Anonymous?
  {
    if p.Anonymous? then AuthenticationCredentialsNotFound else AccessDenied(deniedText)
  }

  /** A value, or the exception raised instead. */
  datatype Outcome<+T> = Ok(value: T) | Thrown(failure: Failure)

  /** The requested page index and page size. */
  datatype PageRequest = PageRequest(page: int, size: int)

  /** The store's answer to a paged query: the slice and the totals it computed. */
  datatype Page = Page(content: seq<Car>, totalElements: int, totalPages: int)
}

=== FILE: http.dfy ===
/** The few HTTP notions the endpoint and the error translation need. */
module Http {

  /** One response header, as `HttpServletResponse.addHeader(name, value)` adds it. */
  datatype Header = Header(name: string, value: string)

  const StatusOk := 200
  const StatusCreated := 201
  const StatusNoContent := 204
  const StatusBadRequest := 400
  const StatusForbidden := 403
  const StatusNotFound := 404
  const StatusInternalServerError := 500
}

=== FILE: optional.dfy ===
/**
  A value that may be absent: the model's stand-in for Java's `null` and
  `java.util.Optional`.
 */
module Optional {

  datatype Option<+T> = None | Some(value: T)
}

=== FILE: pagination.dfy ===
/**
  Discoverability headers for a paginated listing: the four
  `Pagination-*` scalar headers and a `Link` header whose entries have the
  `<uri>; rel="name"` form of section 5 of RFC 5988, for the relations
  `next`, `prev`, `first` and `last`.

  `LinkHeader` follows the listener step by step: one `StringBuilder`,
  one `UriComponentsBuilder` that every `construct*PageUri` call mutates
  in place, and a comma appended only when something is already there.
  `Relations` and `LinkEntries` are the independent description of the
  result, and `LinkHeaderIsJoin` connects the two.

  Page numbers are Java `int`s; the model computes on unbounded integers,
  and `LinkTargetsExist` shows that for the inputs the endpoint passes
  every computed page lies between 0 and `totalPages - 1`, so no 32-bit
  overflow can occur.
 */
module Pagination {
  import opened Decimal
  import opened Optional
  import opened Strings
  import opened Uris
  import opened Http

  datatype Rel = Next | Prev | First | Last {

    /** The relation name written inside `rel="…"`. */
    function Name(): string {
      match this
      case Next => "next"
      case Prev => "prev"
      case First => "first"
      case Last => "last"
    }

    /** Position of the relation in the fixed emission order. */
    function Rank(): nat {
      match this
      case Next => 0
      case Prev => 1
      case First => 2
      case Last => 3
    }
  }

  predicate HasNextPage(page: int, totalPages: int) {
    page < totalPages - 1
  }

  predicate HasPreviousPage(page: int) {
    page > 0
  }

  predicate HasFirstPage(page: int) {
    HasPreviousPage(page)
  }

  predicate HasLastPage(page: int, totalPages: int) {
    totalPages > 1 && HasNextPage(page, totalPages)
  }

  /** One `Link` entry: the URI in angle brackets, then the quoted relation. */
  function CreateLinkHeader(uri: string, rel: string): string {
    "<" + uri + ">; rel=\"" + rel + "\""
  }

  function AppendCommaIfNecessary(linkHeader: string): string {
    if |linkHeader| > 0 then linkHeader + ", " else linkHeader
  }

  /** The listener's mutable state: the shared URI builder and the `StringBuilder`. */
  datatype Links = Links(builder: UriBuilder, header: string)

  /**
    One `if (has…Page) { … }` block of the listener: overwrite page and size
    on the shared builder, render it, and append the entry (after a comma
    if `comma` and something is already there).
   */
  function AddLink(acc: Links, present: bool, comma: bool, target: int, pageSize: int, rel: string): Links {
    if !present then acc
    else
      var b := WithPageAndSize(acc.builder, target, pageSize);
      var prefix := if comma then AppendCommaIfNecessary(acc.header) else acc.header;
      Links(b, prefix + CreateLinkHeader(ToUriString(b), rel))
  }

  /** The `Link` header value, computed as the listener computes it. */
  function LinkHeader(uriBuilder: UriBuilder, page: int, totalPages: int, pageSize: int): string {
    var afterNext := AddLink(Links(uriBuilder, ""), HasNextPage(page, totalPages), false, page + 1, pageSize, "next");
    var afterPrev := AddLink(afterNext, HasPreviousPage(page), true, page - 1, pageSize, "prev");
    var afterFirst := AddLink(afterPrev, HasFirstPage(page), true, 0, pageSize, "first");
    var afterLast := AddLink(afterFirst, HasLastPage(page, totalPages), true, totalPages - 1, pageSize, "last");
    afterLast.header
  }

  /** `[rel]` when the relation is present, nothing otherwise. */
  function Present(present: bool, rel: Rel): seq<Rel> {
    if present then [rel] else []
  }

  /** The relations a page has, in emission order. */
  function Relations(page: int, totalPages: int): (rels: seq<Rel>)
    ensures Next in rels <==> page < totalPages - 1
    ensures Prev in rels <==> page > 0
    ensures First in rels <==> Prev in rels
    ensures Last in rels <==> totalPages > 1 && Next in rels
    ensures forall i, j :: 0 <= i < j < |rels| ==> rels[i].Rank() < rels[j].Rank()
  {
    Present(HasNextPage(page, totalPages), Next)
    + Present(HasPreviousPage(page), Prev)
    + Present(HasFirstPage(page), First)
    + Present(HasLastPage(page, totalPages), Last)
  }

  /** The page a relation points at. */
  function TargetPage(rel: Rel, page: int, totalPages: int): int {
    match rel
    case Next => page + 1
    case Prev => page - 1
    case First => 0
    case Last => totalPages - 1
  }

  /** The request URI with `page` and `size` overwritten. */
  function PageUri(uriBuilder: UriBuilder, target: int, pageSize: int): string {
    ToUriString(WithPageAndSize(uriBuilder, target, pageSize))
  }

  function Entry(uriBuilder: UriBuilder, rel: Rel, page: int, totalPages: int, pageSize: int): string {
    CreateLinkHeader(PageUri(uriBuilder, TargetPage(rel, page, totalPages), pageSize), rel.Name())
  }

  /** One entry per relation in `rels`, each built from the request's own URI. */
  function EntriesOf(uriBuilder: UriBuilder, rels: seq<Rel>, page: int, totalPages: int, pageSize: int): (entries: seq<string>)
    ensures |entries| == |rels|
    ensures forall i :: 0 <= i < |entries| ==> |entries[i]| > 0 && entries[i][0] == '<'
  {
    seq(|rels|, i requires 0 <= i < |rels| => Entry(uriBuilder, rels[i], page, totalPages, pageSize))
  }

  lemma EntriesOfConcat(uriBuilder: UriBuilder, a: seq<Rel>, c: seq<Rel>, page: int, totalPages: int, pageSize: int)
    ensures EntriesOf(uriBuilder, a + c, page, totalPages, pageSize)
         == EntriesOf(uriBuilder, a, page, totalPages, pageSize) + EntriesOf(uriBuilder, c, page, totalPages, pageSize)
  {
  }

  lemma EntriesOfPresent(uriBuilder: UriBuilder, present: bool, rel: Rel, page: int, totalPages: int, pageSize: int)
    ensures EntriesOf(uriBuilder, Present(present, rel), page, totalPages, pageSize)
         == if present then [CreateLinkHeader(PageUri(uriBuilder, TargetPage(rel, page, totalPages), pageSize), rel.Name())]
            else []
  {
  }

  /** The entries of the present relations, in emission order. */
  function LinkEntries(uriBuilder: UriBuilder, page: int, totalPages: int, pageSize: int): seq<string> {
    EntriesOf(uriBuilder, Relations(page, totalPages), page, totalPages, pageSize)
  }

  /** What the builder looks like between two blocks: untouched, or with page and size overwritten. */
  predicate Prepared(builder: UriBuilder, uriBuilder: UriBuilder, pageSize: int, prior: int) {
    builder == uriBuilder || builder == WithPageAndSize(uriBuilder, prior, pageSize)
  }

  /** One block of the listener extends the joined entries by at most one entry. */
  lemma AddLinkStep(uriBuilder: UriBuilder, acc: Links, prior: int, present: bool, comma: bool,
                    target: int, pageSize: int, rel: Rel, entries: seq<string>)
    requires Prepared(acc.builder, uriBuilder, pageSize, prior)
    requires acc.header == Join(entries, ", ")
    requires forall i :: 0 <= i < |entries| ==> |entries[i]| > 0
    requires comma || |entries| == 0
    ensures var after := AddLink(acc, present, comma, target, pageSize, rel.Name());
            var entry := CreateLinkHeader(PageUri(uriBuilder, target, pageSize), rel.Name());
            && Prepared(after.builder, uriBuilder, pageSize, if present then target else prior)
            && after.header == Join(entries + (if present then [entry] else []), ", ")
  {
    if present {
      if acc.builder != uriBuilder {
        WithPageAndSizeOverrides(uriBuilder, prior, pageSize, target, pageSize);
      }
      var entry := CreateLinkHeader(PageUri(uriBuilder, target, pageSize), rel.Name());
      if |entries| == 0 {
        assert entries + [entry] == [entry];
      } else {
        JoinEmpty(entries, ", ");
        JoinSnoc(entries, entry, ", ");
      }
    } else {
      assert entries + [] == entries;
    }
  }

  /**
    The listener's step-by-step header equals the independent description:
    the present relations' entries, in order, separated by `", "`.
   */
  lemma LinkHeaderIsJoin(uriBuilder: UriBuilder, page: int, totalPages: int, pageSize: int)
    ensures LinkHeader(uriBuilder, page, totalPages, pageSize)
         == Join(LinkEntries(uriBuilder, page, totalPages, pageSize), ", ")
  {
    var hasNext, hasPrev := HasNextPage(page, totalPages), HasPreviousPage(page);
    var a1 := AddLink(Links(uriBuilder, ""), hasNext, false, page + 1, pageSize, "next");
    var a2 := AddLink(a1, hasPrev, true, page - 1, pageSize, "prev");
    var e2 := FirstTwoBlocks(uriBuilder, page, totalPages, pageSize);
    LastTwoBlocks(uriBuilder, a2, if hasPrev then page - 1 else if hasNext then page + 1 else 0,
                  page, totalPages, pageSize, e2);
    EntriesInBlocks(uriBuilder, page, totalPages, pageSize);
  }

  /** The present relations' entries, block by block. */
  lemma EntriesInBlocks(uriBuilder: UriBuilder, page: int, totalPages: int, pageSize: int)
    ensures LinkEntries(uriBuilder, page, totalPages, pageSize)
         == EntriesOf(uriBuilder, Present(HasNextPage(page, totalPages), Next), page, totalPages, pageSize)
          + EntriesOf(uriBuilder, Present(HasPreviousPage(page), Prev), page, totalPages, pageSize)
          + EntriesOf(uriBuilder, Present(HasFirstPage(page), First), page, totalPages, pageSize)
          + EntriesOf(uriBuilder, Present(HasLastPage(page, totalPages), Last), page, totalPages, pageSize)
  {
    var r1, r2 := Present(HasNextPage(page, totalPages), Next), Present(HasPreviousPage(page), Prev);
    var r3, r4 := Present(HasFirstPage(page), First), Present(HasLastPage(page, totalPages), Last);
    EntriesOfConcat(uriBuilder, r1, r2, page, totalPages, pageSize);
    EntriesOfConcat(uriBuilder, r1 + r2, r3, page, totalPages, pageSize);
    EntriesOfConcat(uriBuilder, r1 + r2 + r3, r4, page, totalPages, pageSize);
  }

  /** The `next` and `prev` blocks of the listener, from the request's own builder and an empty header. */
  lemma FirstTwoBlocks(uriBuilder: UriBuilder, page: int, totalPages: int, pageSize: int) returns (e2: seq<string>)
    ensures var hasNext, hasPrev := HasNextPage(page, totalPages), HasPreviousPage(page);
            var a1 := AddLink(Links(uriBuilder, ""), hasNext, false, page + 1, pageSize, "next");
            var a2 := AddLink(a1, hasPrev, true, page - 1, pageSize, "prev");
            && e2 == EntriesOf(uriBuilder, Present(hasNext, Next), page, totalPages, pageSize)
                   + EntriesOf(uriBuilder, Present(hasPrev, Prev), page, totalPages, pageSize)
            && a2.header == Join(e2, ", ")
            && Prepared(a2.builder, uriBuilder, pageSize, if hasPrev then page - 1 else if hasNext then page + 1 else 0)
            && forall i :: 0 <= i < |e2| ==> |e2[i]| > 0
  {
    var hasNext, hasPrev := HasNextPage(page, totalPages), HasPreviousPage(page);
    var e1 := EntriesOf(uriBuilder, Present(hasNext, Next), page, totalPages, pageSize);
    e2 := e1 + EntriesOf(uriBuilder, Present(hasPrev, Prev), page, totalPages, pageSize);
    var a0 := Links(uriBuilder, "");
    var a1 := AddLink(a0, hasNext, false, page + 1, pageSize, "next");
    var p1 := if hasNext then page + 1 else 0;
    assert a1.header == Join(e1, ", ") && Prepared(a1.builder, uriBuilder, pageSize, p1) by {
      AddLinkStep(uriBuilder, a0, 0, hasNext, false, page + 1, pageSize, Next, []);
      EntriesOfPresent(uriBuilder, hasNext, Next, page, totalPages, pageSize);
      assert [] + e1 == e1;
    }
    AddLinkStep(uriBuilder, a1, p1, hasPrev, true, page - 1, pageSize, Prev, e1);
    EntriesOfPresent(uriBuilder, hasPrev, Prev, page, totalPages, pageSize);
  }

  /** The `first` and `last` blocks of the listener, continuing from the state after `prev`. */
  lemma LastTwoBlocks(uriBuilder: UriBuilder, a2: Links, p2: int, page: int, totalPages: int, pageSize: int,
                      e2: seq<string>)
    requires Prepared(a2.builder, uriBuilder, pageSize, p2)
    requires a2.header == Join(e2, ", ")
    requires forall i :: 0 <= i < |e2| ==> |e2[i]| > 0
    ensures var hasPrev, hasLast := HasPreviousPage(page), HasLastPage(page, totalPages);
            var a3 := AddLink(a2, hasPrev, true, 0, pageSize, "first");
            var a4 := AddLink(a3, hasLast, true, totalPages - 1, pageSize, "last");
            a4.header == Join(e2 + EntriesOf(uriBuilder, Present(hasPrev, First), page, totalPages, pageSize)
                                 + EntriesOf(uriBuilder, Present(hasLast, Last), page, totalPages, pageSize), ", ")
  {
    var hasPrev, hasLast := HasPreviousPage(page), HasLastPage(page, totalPages);
    var e3 := e2 + EntriesOf(uriBuilder, Present(hasPrev, First), page, totalPages, pageSize);
    var a3 := AddLink(a2, hasPrev, true, 0, pageSize, "first");
    var p3 := if hasPrev then 0 else p2;
    assert a3.header == Join(e3, ", ") && Prepared(a3.builder, uriBuilder, pageSize, p3) by {
      AddLinkStep(uriBuilder, a2, p2, hasPrev, true, 0, pageSize, First, e2);
      EntriesOfPresent(uriBuilder, hasPrev, First, page, totalPages, pageSize);
    }
    AddLinkStep(uriBuilder, a3, p3, hasLast, true, totalPages - 1, pageSize, Last, e3);
    EntriesOfPresent(uriBuilder, hasLast, Last, page, totalPages, pageSize);
  }

  /**
    `addLinkHeaderOnPagedResourceRetrieval`: the four `Pagination-*` headers
    carry the decimal renderings of their inputs, and the `Link` header,
    always present, joins one entry per present relation.
   */
  function AddLinkHeaderOnPagedResourceRetrieval(uriBuilder: UriBuilder, totalCount: int, page: int,
                                                 totalPages: int, pageSize: int): (headers: seq<Header>)
    ensures |headers| == 5
    ensures headers[0].name == "Pagination-Total-Count" && headers[0].value == FromInt(totalCount) && Parse(headers[0].value) == Some(totalCount)
    ensures headers[1].name == "Pagination-Page" && headers[1].value == FromInt(page) && Parse(headers[1].value) == Some(page)
    ensures headers[2].name == "Pagination-Page-Count" && headers[2].value == FromInt(totalPages) && Parse(headers[2].value) == Some(totalPages)
    ensures headers[3].name == "Pagination-Limit" && headers[3].value == FromInt(pageSize) && Parse(headers[3].value) == Some(pageSize)
    ensures headers[4].name == "Link"
    ensures headers[4].value == Join(LinkEntries(uriBuilder, page, totalPages, pageSize), ", ")
  {
    RoundTrip(totalCount);
    RoundTrip(page);
    RoundTrip(totalPages);
    RoundTrip(pageSize);
    LinkHeaderIsJoin(uriBuilder, page, totalPages, pageSize);
    [ Header("Pagination-Total-Count", FromInt(totalCount)),
      Header("Pagination-Page", FromInt(page)),
      Header("Pagination-Page-Count", FromInt(totalPages)),
      Header("Pagination-Limit", FromInt(pageSize)),
      Header("Link", LinkHeader(uriBuilder, page, totalPages, pageSize)) ]
  }

  /** For a page that exists, `last` is present exactly when `next` is. */
  lemma LastIffNext(page: int, totalPages: int)
    requires page >= 0
    ensures Last in Relations(page, totalPages) <==> Next in Relations(page, totalPages)
  {
  }

  /**
    For a page the endpoint lets through, every link points at a page that
    exists, so none of the `int` computations can leave `0 .. totalPages - 1`.
   */
  lemma LinkTargetsExist(page: int, totalPages: int)
    requires 0 <= page <= totalPages - 1
    ensures forall rel :: rel in Relations(page, totalPages) ==>
              0 <= TargetPage(rel, page, totalPages) <= totalPages - 1
  {
  }

  /** With no relation present the `Link` header is still added, with an empty value. */
  lemma EmptyLinkHeader(uriBuilder: UriBuilder, page: int, totalPages: int, pageSize: int)
    requires page == 0 && totalPages <= 1
    ensures LinkHeader(uriBuilder, page, totalPages, pageSize) == ""
  {
    LinkHeaderIsJoin(uriBuilder, page, totalPages, pageSize);
  }

  /** The `Link` value is empty exactly when the page has no relation. */
  lemma LinkHeaderEmptyIff(uriBuilder: UriBuilder, page: int, totalPages: int, pageSize: int)
    ensures LinkHeader(uriBuilder, page, totalPages, pageSize) == "" <==> Relations(page, totalPages) == []
  {
    LinkHeaderIsJoin(uriBuilder, page, totalPages, pageSize);
    JoinEmpty(LinkEntries(uriBuilder, page, totalPages, pageSize), ", ");
  }

  /** The first page of three: `next` and `last` only. */
  lemma FirstOfThree()
    ensures Relations(0, 3) == [Next, Last]
    ensures TargetPage(Next, 0, 3) == 1 && TargetPage(Last, 0, 3) == 2
  {
  }

  /** The middle page of three: all four relations, `last` at page 2. */
  lemma MiddleOfThree()
    ensures Relations(1, 3) == [Next, Prev, First, Last]
    ensures TargetPage(Last, 1, 3) == 2 && TargetPage(Prev, 1, 3) == 0
  {
  }

  /** The last of several pages: `prev` and `first` only. */
  lemma LastPage(totalPages: int)
    requires totalPages > 1
    ensures Relations(totalPages - 1, totalPages) == [Prev, First]
  {
  }

  /**
    Five cars, two per page, first page requested on a request without a
    query: a `next` entry for page 1, then a `last` entry for page 2, and
    nothing else.
   */
  lemma FirstPageOfFiveLinkHeader(path: string)
    ensures LinkHeader(UriBuilder(path, []), 0, 3, 2)
         == CreateLinkHeader(path + "?page=1&size=2", "next") + ", " + CreateLinkHeader(path + "?page=2&size=2", "last")
  {
    var b := UriBuilder(path, []);
    var e1, e2 := CreateLinkHeader(path + "?page=1&size=2", "next"), CreateLinkHeader(path + "?page=2&size=2", "last");
    assert LinkEntries(b, 0, 3, 2) == [e1, e2] by {
      assert Relations(0, 3) == [Next, Last];
      PageOneSizeTwo(path);
      PageTwoSizeTwo(path);
    }
    LinkHeaderIsJoin(b, 0, 3, 2);
    assert Join([e1, e2], ", ") == e1 + ", " + e2 by {
      assert [e1, e2][..1] == [e1];
    }
  }

  lemma PageOneSizeTwo(path: string)
    ensures PageUri(UriBuilder(path, []), 1, 2) == path + "?page=1&size=2"
  {
    PageUriOnBareBuilder(UriBuilder(path, []), 1, 2);
    assert FromInt(1) == "1" && FromInt(2) == "2";
  }

  lemma PageTwoSizeTwo(path: string)
    ensures PageUri(UriBuilder(path, []), 2, 2) == path + "?page=2&size=2"
  {
    PageUriOnBareBuilder(UriBuilder(path, []), 2, 2);
    assert FromInt(2) == "2";
  }

  /** On a builder without a query, the overwrite leaves exactly `page` and then `size`. */
  lemma BareBuilderQuery(b: UriBuilder, target: int, pageSize: int)
    requires b.query == []
    ensures WithPageAndSize(b, target, pageSize).query
         == [QueryParam("page", [FromInt(target)]), QueryParam("size", [FromInt(pageSize)])]
  {
    var pageParam := QueryParam("page", [FromInt(target)]);
    assert ReplaceQueryParam(b, "page", FromInt(target)).query == [pageParam];
    WithoutSingle(pageParam, "size");
  }

  /** On a builder without a query, a page URI is the path with exactly `page` and then `size`. */
  lemma PageUriOnBareBuilder(b: UriBuilder, target: int, pageSize: int)
    requires b.query == []
    ensures PageUri(b, target, pageSize) == b.path + "?page=" + FromInt(target) + "&size=" + FromInt(pageSize)
  {
    var pagePiece, sizePiece := "page=" + FromInt(target), "size=" + FromInt(pageSize);
    var pageParam, sizeParam := QueryParam("page", [FromInt(target)]), QueryParam("size", [FromInt(pageSize)]);
    BareBuilderQuery(b, target, pageSize);
    assert Pieces(pageParam) == [pagePiece] by {
      assert ValuePieces("page", pageParam.values)[0] == pagePiece;
    }
    assert Pieces(sizeParam) == [sizePiece] by {
      assert ValuePieces("size", sizeParam.values)[0] == sizePiece;
    }
    assert AllPieces([pageParam, sizeParam]) == [pagePiece, sizePiece] by {
      assert [pageParam, sizeParam][1..] == [sizeParam];
      assert [sizeParam][1..] == [];
      assert AllPieces([sizeParam]) == [sizePiece] + AllPieces([]);
    }
    assert Join([pagePiece, sizePiece], "&") == pagePiece + "&" + sizePiece by {
      assert [pagePiece, sizePiece][..1] == [pagePiece];
    }
  }
}

=== FILE: strings.dfy ===
/**
  Joining strings with a separator, as a header value or a query string is
  assembled: no separator before the first piece or after the last.
 */
module Strings {

  /** `xs` in order with `sep` between each neighbouring pair. */
  function Join(xs: seq<string>, sep: string): string
    decreases |xs|
  {
    if |xs| == 0 then ""
    else if |xs| == 1 then xs[0]
    else Join(xs[..|xs| - 1], sep) + sep + xs[|xs| - 1]
  }

  /** Total length of the pieces. */
  function SumLengths(xs: seq<string>): nat
    decreases |xs|
  {
    if |xs| == 0 then 0 else SumLengths(xs[..|xs| - 1]) + |xs[|xs| - 1]|
  }

  /** Joining one more piece appends exactly one separator and the piece. */
  lemma JoinSnoc(xs: seq<string>, x: string, sep: string)
    requires |xs| > 0
    ensures Join(xs + [x], sep) == Join(xs, sep) + sep + x
  {
    assert (xs + [x])[..|xs|] == xs;
  }

  /**
    A join of `n` pieces holds exactly `n - 1` separators: its length is the
    pieces' lengths plus `n - 1` separator lengths.
   */
  lemma {:induction false} JoinLength(xs: seq<string>, sep: string)
    requires |xs| > 0
    ensures |Join(xs, sep)| == SumLengths(xs) + |sep| * (|xs| - 1)
    decreases |xs|
  {
    if |xs| > 1 {
      JoinLength(xs[..|xs| - 1], sep);
    }
  }

  /** A join of non-empty pieces is empty only when there is nothing to join. */
  lemma {:induction false} JoinEmpty(xs: seq<string>, sep: string)
    requires forall i :: 0 <= i < |xs| ==> |xs[i]| > 0
    ensures Join(xs, sep) == "" <==> |xs| == 0
    decreases |xs|
  {
    if |xs| > 1 {
      JoinEmpty(xs[..|xs| - 1], sep);
    }
  }

  /**
    A join starts with its first piece and ends with its last, so no
    separator comes before the first piece or after the last.
   */
  lemma {:induction false} JoinEnds(xs: seq<string>, sep: string)
    requires |xs| > 0
    ensures |xs[0]| <= |Join(xs, sep)| && Join(xs, sep)[..|xs[0]|] == xs[0]
    ensures |xs[|xs| - 1]| <= |Join(xs, sep)| && Join(xs, sep)[|Join(xs, sep)| - |xs[|xs| - 1]|..] == xs[|xs| - 1]
    decreases |xs|
  {
    if |xs| > 1 {
      var init := xs[..|xs| - 1];
      JoinEnds(init, sep);
      assert init[0] == xs[0];
      var j := Join(init, sep);
      assert Join(xs, sep) == j + sep + xs[|xs| - 1];
      assert (j + sep + xs[|xs| - 1])[..|xs[0]|] == j[..|xs[0]|];
    }
  }
}

=== FILE: uris.dfy ===
/**
  The part of Spring's `UriComponentsBuilder` that the pagination links
  and the `Location` header use: a path (scheme, host and path, already
  encoded) and a query held as a linked multi-value map, i.e. a sequence of
  parameters in first-insertion order, each with its list of values.

  `replaceQueryParam(name, value)` removes every value of `name` and then
  puts `name` back with the single new value; since the map is linked, the
  re-inserted name moves to the end of the query.
 */
module Uris {
  import opened Decimal
  import opened Strings

  datatype QueryParam = QueryParam(name: string, values: seq<string>)

  datatype UriBuilder = UriBuilder(path: string, query: seq<QueryParam>)

  /** Every value bound to `name`, in query order. */
  function Values(q: seq<QueryParam>, name: string): seq<string>
    decreases |q|
  {
    if |q| == 0 then []
    else (if q[0].name == name then q[0].values else []) + Values(q[1..], name)
  }

  /** The query without any parameter called `name`. */
  function Without(q: seq<QueryParam>, name: string): seq<QueryParam>
    decreases |q|
  {
    if |q| == 0 then []
    else if q[0].name == name then Without(q[1..], name)
    else [q[0]] + Without(q[1..], name)
  }

  lemma {:induction false} ValuesConcat(a: seq<QueryParam>, b: seq<QueryParam>, name: string)
    ensures Values(a + b, name) == Values(a, name) + Values(b, name)
    decreases |a|
  {
    if |a| == 0 {
      assert a + b == b;
    } else {
      assert (a + b)[0] == a[0];
      assert (a + b)[1..] == a[1..] + b;
      ValuesConcat(a[1..], b, name);
    }
  }

  lemma {:induction false} ValuesWithout(q: seq<QueryParam>, name: string, other: string)
    ensures Values(Without(q, name), name) == []
    ensures other != name ==> Values(Without(q, name), other) == Values(q, other)
    decreases |q|
  {
    if |q| > 0 {
      ValuesWithout(q[1..], name, other);
      if q[0].name != name {
        ValuesConcat([q[0]], Without(q[1..], name), name);
        ValuesConcat([q[0]], Without(q[1..], name), other);
      }
    }
  }

  lemma {:induction false} WithoutConcat(a: seq<QueryParam>, b: seq<QueryParam>, name: string)
    ensures Without(a + b, name) == Without(a, name) + Without(b, name)
    decreases |a|
  {
    if |a| == 0 {
      assert a + b == b;
    } else {
      assert (a + b)[0] == a[0];
      assert (a + b)[1..] == a[1..] + b;
      WithoutConcat(a[1..], b, name);
      if a[0].name != name {
        assert [a[0]] + Without(a[1..], name) + Without(b, name)
            == [a[0]] + (Without(a[1..], name) + Without(b, name));
      }
    }
  }

  lemma WithoutSingle(p: QueryParam, name: string)
    ensures Without([p], name) == if p.name == name then [] else [p]
  {
    assert [p][1..] == [];
  }

  lemma {:induction false} WithoutTwice(q: seq<QueryParam>, a: string, b: string)
    ensures Without(Without(q, a), b) == Without(Without(q, b), a)
    ensures Without(Without(q, a), a) == Without(q, a)
    decreases |q|
  {
    if |q| > 0 {
      WithoutTwice(q[1..], a, b);
      var rest := q[1..];
      if q[0].name != a {
        WithoutConcat([q[0]], Without(rest, a), a);
        WithoutConcat([q[0]], Without(rest, a), b);
      }
      if q[0].name != b {
        WithoutConcat([q[0]], Without(rest, b), a);
        WithoutConcat([q[0]], Without(rest, b), b);
      }
      if q[0].name != a && q[0].name != b {
        WithoutConcat([q[0]], Without(Without(rest, a), b), a);
        WithoutConcat([q[0]], Without(Without(rest, b), a), b);
      }
    }
  }

  /**
    `replaceQueryParam(name, value)`: afterwards `name` has exactly the one
    value, and every other parameter keeps its values.
   */
  function ReplaceQueryParam(b: UriBuilder, name: string, value: string): (r: UriBuilder)
    ensures r.path == b.path
    ensures Values(r.query, name) == [value]
    ensures forall other :: other != name ==> Values(r.query, other) == Values(b.query, other)
  {
    var single := QueryParam(name, [value]);
    ValuesWithout(b.query, name, name);
    ValuesConcat(Without(b.query, name), [single], name);
    assert Values([single], name) == [value];
    forall other | other != name
      ensures Values(Without(b.query, name) + [single], other) == Values(b.query, other)
    {
      ValuesWithout(b.query, name, other);
      ValuesConcat(Without(b.query, name), [single], other);
      assert Values([single], other) == [];
    }
    b.(query := Without(b.query, name) + [single])
  }

  /**
    The builder with `page` and `size` overwritten, as each of the
    listener's `construct*PageUri` helpers does before rendering.
   */
  function WithPageAndSize(b: UriBuilder, page: int, size: int): (r: UriBuilder)
    ensures r.path == b.path
    ensures Values(r.query, "page") == [FromInt(page)]
    ensures Values(r.query, "size") == [FromInt(size)]
    ensures forall other :: other != "page" && other != "size" ==>
              Values(r.query, other) == Values(b.query, other)
  {
    ReplaceQueryParam(ReplaceQueryParam(b, "page", FromInt(page)), "size", FromInt(size))
  }

  /**
    Overwriting page and size a second time forgets the first overwrite
    entirely: the builder the listener mutates in place renders every link
    as if it had started from the request's own builder.
   */
  lemma WithPageAndSizeOverrides(b: UriBuilder, p1: int, s1: int, p2: int, s2: int)
    ensures WithPageAndSize(WithPageAndSize(b, p1, s1), p2, s2) == WithPageAndSize(b, p2, s2)
  {
    var q := b.query;
    var P1, S1 := QueryParam("page", [FromInt(p1)]), QueryParam("size", [FromInt(s1)]);
    var P2, S2 := QueryParam("page", [FromInt(p2)]), QueryParam("size", [FromInt(s2)]);
    var base := Without(Without(q, "page"), "size");
    WithoutTwice(q, "page", "size");
    WithoutTwice(Without(q, "size"), "page", "page");
    WithoutTwice(Without(q, "page"), "size", "size");
    assert Without(base, "page") == base;
    assert Without(base, "size") == base;
    WithoutSingle(P1, "page");
    WithoutSingle(P2, "page");
    WithoutSingle(S1, "size");
    WithoutSingle(P1, "size");
    WithoutSingle(S1, "page");
    WithoutSingle(P2, "size");
    // the first overwrite leaves `base + [P1, S1]`
    WithoutConcat(Without(q, "page"), [P1], "size");
    var q1 := base + [P1] + [S1];
    assert WithPageAndSize(b, p1, s1).query == q1;
    // replacing "page" in it leaves `base + [S1, P2]`
    WithoutConcat(base + [P1], [S1], "page");
    WithoutConcat(base, [P1], "page");
    var q2 := base + [S1] + [P2];
    assert ReplaceQueryParam(UriBuilder(b.path, q1), "page", FromInt(p2)).query == q2;
    // replacing "size" in that leaves `base + [P2, S2]`
    WithoutConcat(base + [S1], [P2], "size");
    WithoutConcat(base, [S1], "size");
    assert ReplaceQueryParam(UriBuilder(b.path, q2), "size", FromInt(s2)).query == base + [P2] + [S2];
    // which is what a single overwrite of the original gives
    WithoutConcat(Without(q, "page"), [P2], "size");
    assert WithPageAndSize(b, p2, s2).query == base + [P2] + [S2];
  }

  /** One `name=value` piece per value, in order. */
  function ValuePieces(name: string, values: seq<string>): (pieces: seq<string>)
    ensures |pieces| == |values|
    ensures forall i :: 0 <= i < |values| ==> pieces[i] == name + "=" + values[i]
    decreases |values|
  {
    if |values| == 0 then [] else [name + "=" + values[0]] + ValuePieces(name, values[1..])
  }

  /** The pieces of one parameter: the bare name when it has no value, else one `name=value` per value. */
  function Pieces(p: QueryParam): seq<string> {
    if |p.values| == 0 then [p.name] else ValuePieces(p.name, p.values)
  }

  function AllPieces(q: seq<QueryParam>): seq<string>
    decreases |q|
  {
    if |q| == 0 then [] else Pieces(q[0]) + AllPieces(q[1..])
  }

  /** `toUriString()`: the path, then `?` and the `&`-joined query when there is one. */
  function ToUriString(b: UriBuilder): string {
    b.path + (if |b.query| == 0 then "" else "?" + Join(AllPieces(b.query), "&"))
  }

  /** `path(segment)`: appends to the path and keeps the query. */
  function AppendPath(b: UriBuilder, segment: string): UriBuilder {
    b.(path := b.path + segment)
  }
}
